=== FILE: README.md ===
# PyCABeM benchmark naming conventions in Dafny

This project models the naming-convention core of PyCABeM's `benchapps.py`. That file runs clustering
algorithms on networks and evaluates their results. The core is the set of rules that turn file and
directory names into work:

- **Coalescing** (`preparePath`). Every instance (`^n`), parameter variant (`!…`) and shuffle (`.n`) of a
  network is reduced to one backup path.
- **SCP task paths** (`execScp`). The clique-size variants `k3`…`k8` are embedded into the task path.
- **Group classification** (`evalGeneric`). This decides which cluster-group directories
  `<base>[^instance][!params][.shuffle][#[f]pathid]` belong to the evaluated base network and path id, and
  which shuffle each one holds.
- **Derived names.** These are the task name, the profile file `results/<alg>/<measure>.rcp`, the log
  directories, the accumulation file shared by all shuffles of a group, and the job names and captions.
- **Planning.** `evalGeneric` becomes a pure fold over a directory listing that yields the evaluation plan.
- **Measure dispatch** (`evalAlgorithm`). `mod`, `nmi` and `nmi_s` map to their directory and tidy flag.
- **The accumulation rule** (`aggLevs`). A finished job appends a row to its accumulation file, preceded by
  the measure's header when the file is empty.

Modules, one per concern:

| module | file | concern |
|---|---|---|
| `Wrappers` | wrappers.dfy | `Option` and `Result` |
| `PyStr` | pystr.dfy | the Python string operations the code relies on: `rfind`, `find`, `startswith`, `endswith`, `rsplit(c, 1)`, `replace`, Python 2 `int()` acceptance |
| `PyPath` | pypath.dfy | `os.path.split`, `basename`, `splitext` (posixpath rules) |
| `Naming` | naming.dfy | separators and directory constants, path ids, shuffles, group classification, derived names, captions |
| `Preparer` | preparer.dfy | the backup path of `preparePath` and the task paths of `execScp` |
| `Measures` | measures.dfy | the three measures and their dispatch table |
| `Accumulation` | accumulation.dfy | the append rule, a store of files, clearing and completing a run |
| `Evaluator` | evaluator.dfy | `evalGeneric` and `evalAlgorithm` as planning functions |
| `Runs` | runs.dfy | plans and runs put together: what tidy and untidy runs do to the accumulation files |

Places where the code's behaviour is easy to misread, and what the model does:

- **A group named like `net1K.1_algoX` has no shuffle.** The text after its last `.` is `1_algoX`.
  `int("1_algoX")` raises `ValueError`, so lines 171-179 reset the shuffle to empty and the group is
  evaluated as unshuffled (`Naming.ShuffleOfSpec`).
- **Continuation names such as `net2` for base `net`.** The instance filter only rejects a `^` right after the
  caption, so these groups pass it. `Naming.ContinuationNotAnInstance` shows this.
- **A task path without `/` in `preparePath`.** The backup path comes out as `/<name>`, because
  `'/'.join(('', name))` is applied. Every caller passes a `results/…` path. The model keeps the literal
  behaviour, and its lemmas assume a directory part (`Preparer.PlainDir`).
- **A cut at `^` or `!` in `preparePath`.** The name is cut at the smaller of the LAST `^` and the LAST `!`
  (positions from 1 on), not at the first separator. So `a!x^1!k3` is cut to `a!x` (`Preparer.CutAtSeparator`).
- **An evaluation that finds no group directory.** The closing warning formats `clsname`, which is bound only
  inside the group loop. The model's plan is the warning-only one. The crash is recorded under "## Findings".

## Model

| member | source | states |
|---|---|---|
| PyStr.RFind | benchapps.py:144 | `rfind` gives the last index holding the character, or -1 when none does |
| PyStr.RFindAt | benchapps.py:168 | a character at k with none after it is what `rfind` finds |
| PyStr.Find | benchapps.py:208 | `find` gives the first occurrence of the group name in the file's base name, or -1 when there is none |
| PyStr.RSplitLast | benchapps.py:77 | `rsplit('^', 1)` gives one part when the separator is absent; otherwise it splits at the last separator, whose right part is separator-free |
| PyStr.Replace | benchapps.py:183 | `replace` with a replacement equal to the pattern leaves the text unchanged |
| PyStr.ReplaceFirst | benchapps.py:183 | `replace` keeps the text before the first occurrence of a non-empty pattern, writes the replacement in its place, and goes on replacing in the text after it |
| PyStr.ReplaceKeep | benchapps.py:183 | `replace` copies unchanged any leading text in which no occurrence of the pattern starts |
| PyStr.ReplaceAtEnd | benchapps.py:183 | a text whose only occurrence of the pattern is at its end has exactly that occurrence replaced |
| PyStr.ReplaceNoMatch | benchapps.py:183 | `replace` leaves a text without any occurrence of a non-empty pattern unchanged |
| PyStr.ReplaceAppend | benchapps.py:183 | `replace` on a concatenation whose tail cannot complete a match rewrites only the head |
| PyStr.LStripSpaceSpec | benchapps.py:151 | `int()` strips exactly the leading whitespace |
| PyStr.RStripSpaceSpec | benchapps.py:151 | `int()` strips exactly the trailing whitespace |
| PyStr.IsInt | benchapps.py:150-151 | `int()` accepts every non-empty digit string, and any text it accepts is non-empty and starts and ends with a digit, a sign or whitespace |
| PyStr.IntLiteralFree | benchapps.py:168-173 | an integer literal holds none of `.`, `/`, `^`, `!`, so shuffle and instance indices never contain a separator |
| PyPath.Split | benchapps.py:66 | `os.path.split` gives the longest slash-free tail of the path; the head is the rest with its trailing slashes stripped, unless the rest is all slashes, which is kept as is |
| PyPath.SplitJoined | benchapps.py:66 | splitting `d/n` gives back `d` and `n` |
| PyPath.SplitExt | benchapps.py:69 | `splitext` gives a root and an extension that concatenate back to the path; the extension is non-empty exactly when the last `.` lies in the last component after some non-dot character of it, and then it starts at that `.` |
| PyPath.SplitExtAt | benchapps.py:114 | the extension of `pre + x + "." + e` is `.e` when x has a non-dot character |
| PyPath.SplitExtNoDot | benchapps.py:115 | a dot-free name has no extension |
| Naming.HasPathId | benchapps.py:144-160 | a name is skipped as carrying an unexpected path id exactly when some `#` with no later `#` is followed by an integer literal, possibly after `f` |
| Naming.PathIdAtLast | benchapps.py:144-151 | a `#` that starts a path id is the last `#` of the name |
| Naming.PathIdFree | benchapps.py:112 | a well-formed path id has no `/`, `.`, `^` or `!`, so it never disturbs the other separators |
| Naming.ShuffleOf | benchapps.py:168-179 | the shuffle index is empty or an integer literal |
| Naming.ShuffleOfSpec | benchapps.py:168-179 | the shuffle is empty exactly when no `.` followed by an integer literal ends the name before the path id; otherwise the name ends with `.` shuffle |
| Naming.BodyShuffleAt | benchapps.py:168-173 | a `.` followed by an integer literal up to the end is the last `.`, and the shuffle is that integer |
| Naming.Classify | benchapps.py:139-179 | an accepted group ends with the requested path id, has no `^` right after the caption, and carries an integer-literal shuffle that ends its body |
| Naming.ClassifyAccepts | benchapps.py:139-165 | acceptance is exactly the conjunction of the path-id, unexpected-path-id and instance filters |
| Naming.DanglingPathIdKept | benchapps.py:145-157 | any name ending in a bare `#` or `#f`, whatever `#` it holds before, is kept as if it had no path id |
| Naming.PathIdSelects | benchapps.py:140 | with well-formed path ids, a group ending in path id p is selected by q exactly when q is p |
| Naming.PathIdGroupSelection | benchapps.py:139-165 | a group carrying path id p is accepted only for p, and for p when the caption has the right length |
| Naming.ContinuationNotAnInstance | benchapps.py:164-165 | `net2` is accepted for base `net`, unshuffled |
| Naming.ShuffledNameHasNoPathId | benchapps.py:144-151 | a `.n` shuffle suffix never reads as a path id |
| Naming.ShuffledGroupClassified | benchapps.py:168-179 | the group `X.n + pathid` is accepted with shuffle n |
| Naming.PlainGroupUnshuffled | benchapps.py:168-169 | a group name without `.` has no shuffle |
| Naming.TaskCaptionOf | benchapps.py:114 | the caption of `dir/b.ext` is b |
| Naming.TaskName | benchapps.py:129 | without a path id the task name has a doubled `_` where the path id would be |
| Naming.TaskNameSeparatesPathIds | benchapps.py:129 | tasks differing only in path id have different names |
| Naming.ProfilePath | benchapps.py:128 | the profile file is `results/<alg>/` + the measure name + `.rcp` |
| Naming.ProfilePathsDistinct | benchapps.py:128 | different measures of one algorithm have different profile files |
| Naming.LogsDir | benchapps.py:183 | a group path without `clusters/`, or a measure directory equal to `clusters/`, leaves the log directory equal to the group path |
| Naming.LogsDirKeepsGroupName | benchapps.py:183 | the log directory of a group is the mirror of the algorithm's `clusters/` directory followed by the unchanged group name |
| Naming.MeasureDirOf | benchapps.py:183 | the algorithm's `results/<alg>/clusters/` is mirrored by `results/<alg>/<measdir>` |
| Naming.LogsDirOfGroup | benchapps.py:183 | the log directory of group g is `results/<alg>/<measdir>g`: the one `clusters/` of the path is replaced by the measure directory |
| Naming.TaskOutput | benchapps.py:191-195 | the accumulation file carries the measure name as its extension |
| Naming.ShuffledOutput | benchapps.py:191-195 | the shuffled group `X.n + pathid` accumulates into `X + pathid` plus `.measure` |
| Naming.SharedAccumulation | benchapps.py:183-195 | under `results/<alg>/<measdir>`, shuffle n of `X` writes to the same file as the unshuffled group `X + pathid` |
| Naming.AccumulationFileOf | benchapps.py:183-195 | the group `X + pathid` and its shuffles `X.n + pathid` all write `results/<alg>/<measdir>X<pathid>.<measure>` |
| Naming.JobName | benchapps.py:217 | the job name is the measure name, `_`, the group name, `_`, the algorithm name, with each part recoverable at its position |
| Naming.ShufflesShareAccumulation | benchapps.py:164-195 | the shuffled group `X.n + pathid` is accepted with shuffle n, its unshuffled original `X + pathid` has no shuffle when accepted, and both write one accumulation file |
| Naming.JobNameSeparatesGroups | benchapps.py:217 | jobs of different groups have different names |
| Naming.Anchored | benchapps.py:208-212 | when the group name occurs in the file's base name, the anchor is its first occurrence in the unchanged base name; otherwise the anchor is 0 in `<group>_<base name>` |
| Naming.JobCaption | benchapps.py:208-215 | the caption is the text after the first occurrence of the group name and one separator character, or the whole base name when the group name does not occur; a shuffle is put in front with `_` |
| Naming.CaptionAfterFirstOccurrence | benchapps.py:208-213 | a base name `pre + group + c + rest` whose first occurrence of the group name follows pre has caption rest, wherever the group name stands |
| Naming.CaptionOfShuffle | benchapps.py:214-215 | the caption of a shuffled group is the shuffle, `_` and the unshuffled caption |
| Naming.CaptionWithoutGroupName | benchapps.py:210-213 | a file name not containing the group name is its own caption |
| Naming.CaptionAfterGroupName | benchapps.py:208-213 | a file named `<group><sep><rest>` has caption rest |
| Preparer.CutAtSeparator | benchapps.py:70-74 | a cut point is an index from 1 on holding `^` or `!` with no later copy of that character; the name is kept whole exactly when it has no cut point, and otherwise it is cut at its smallest cut point |
| Preparer.CutAtFirst | benchapps.py:70-74 | a name `b` + `^` or `!` + rest, where b is non-empty and neither b nor rest holds `^` or `!`, is cut to b |
| Preparer.CutInstanceParams | benchapps.py:70-74 | an instance variant `b^n!rest` is cut to b: its only `^` comes before its last `!`, so the cut falls at the `^` |
| Preparer.CutNothing | benchapps.py:70-74 | a name with no `^` or `!` after its first character is not cut |
| Preparer.DropInstance | benchapps.py:77-86 | dropping a trailing instance leaves a prefix of the path |
| Preparer.DropInstanceSpec | benchapps.py:77-86 | the path is changed exactly when it ends in `^` plus an integer literal, and then that suffix is removed |
| Preparer.Coalesced | benchapps.py:66-86 | the backup path is a prefix of the main path, and equals it exactly when the main path does not end in `^` plus an integer literal |
| Preparer.MainPathJoined | benchapps.py:66-75 | for `d/name` the main path is `d/` plus the cut stem of name |
| Preparer.MainPathIsPrefix | benchapps.py:66-75 | the main path is a prefix of the task path |
| Preparer.CoalescedIsPrefix | benchapps.py:66-86 | the backup path is a prefix of the task path |
| Preparer.CoalescedUnchanged | benchapps.py:66-86 | a plain task name without extension, separators or instance is its own backup path |
| Preparer.InstanceCoalesces | benchapps.py:66-86 | instance `b^n` of a task is backed up as `b` |
| Preparer.InstanceVariantCoalesces | benchapps.py:66-86 | in any directory, the instance variant `b^n!rest` plus a shuffle and a path id is backed up as `b` |
| Preparer.NatToString | benchapps.py:590 | `str(k)` is a non-empty digit string whose decimal value is k |
| Preparer.ScpPathsFrom | benchapps.py:589-596 | the loop over clique sizes k to 8 yields, at each position, the task path of the corresponding size |
| Preparer.ScpTaskPaths | benchapps.py:580-596 | a network whose base name is empty fails the task-name assertion and prepares nothing; otherwise the i-th prepared path, for i from 0 to 5, is the task path of the network's task for clique size 3 + i |
| Preparer.ScpTaskName | benchapps.py:593-594 | the SCP task name is the task with `!k<k>` inserted at the end of its root, and removing that text gives back the task |
| Preparer.ScpTaskPathInjective | benchapps.py:589-596 | different clique sizes give different task paths |
| Preparer.ScpDirectoryHasNoTask | benchapps.py:580-583 | the network file `nets/` has an empty base name, so `execScp` stops at the task-name assertion and prepares no path |
| Preparer.ScpTaskPathsDistinct | benchapps.py:589-596 | the six prepared task paths of a network are pairwise distinct |
| Preparer.ScpNameShape | benchapps.py:593-594 | for task `b + shuf`, the clique parameter is embedded between the base name and the shuffle |
| Preparer.ScpStemCut | benchapps.py:69-74 | a parameter variant is cut back to its base name |
| Preparer.VariantCoalesces | benchapps.py:66-86 | in any directory, `b!rest` plus a shuffle and a path id is backed up as `b` |
| Preparer.ScpVariantCoalesces | benchapps.py:589-596 | each SCP task path is backed up as `results/scp/clusters/b` |
| Preparer.ScpInstanceCoalesces | benchapps.py:589-596 | each SCP task path of an instance network `b^n` is backed up as `results/scp/clusters/b`, together with the paths of b itself |
| Preparer.ScpNetTask | benchapps.py:581-582 | the SCP task of network `d/b.shuf.ext` is `b.shuf` |
| Preparer.ScpTaskPathsShareBackup | benchapps.py:580-596 | a network file `d/b<shuffle>.<ext>` prepares its six clique-size task paths, and all of them share one backup path, so its results are backed up once |
| Measures.ParseMeasure | benchapps.py:438-445 | exactly `mod`, `nmi` and `nmi_s` are dispatched, each to the measure with that name; any other name fails with `Unexpected measure: <name>` |
| Measures.NamesDistinct | benchapps.py:438-443 | different measures have different names and accumulation extensions |
| Measures.DispatchTable | benchapps.py:438-443 | `mod` goes to `mod/` with tidy, `nmi` to `nmi/` with tidy, `nmi_s` to `nmi/` without tidy |
| Measures.UntidyShares | benchapps.py:441-443 | a measure keeps previous results exactly when another, tidy measure uses its directory |
| Accumulation.Append | benchapps.py:293-299 | an invalid output changes nothing; otherwise the file is kept and the row appended, preceded by the header exactly when the file was empty |
| Accumulation.Accumulate | benchapps.py:293-299 | folding the finished jobs over a file only ever appends: the old lines stay in front |
| Accumulation.Rows | benchapps.py:293-299 | reference definition of the rows a file receives: at most one row per finished job (its content is tied to the file by `Accumulation.AccumulateRows`) |
| Accumulation.AccumulateRows | benchapps.py:293-299 | after any sequence of jobs the file is its old lines, one header if it was empty and some job reported, then the reported rows in finishing order |
| Accumulation.AllReported | benchapps.py:293-299 | from an empty file, k reporting jobs give one header and their k rows in order |
| Accumulation.RowsAllReported | benchapps.py:293-299 | when every job reports, there is one row per job, in order |
| Accumulation.InvalidOutputsIgnored | benchapps.py:353-358 | jobs with unreadable outputs leave the file unchanged |
| Accumulation.Complete | benchapps.py:294-299 | a finished job changes only its own accumulation file |
| Accumulation.CompleteAllPerFile | benchapps.py:294-299 | each file accumulates exactly the jobs writing to it, in their order |
| Accumulation.Clear | benchapps.py:196-197 | removed files read as empty; the others are unchanged |
| Accumulation.RunClearedFile | benchapps.py:196-197 | a removed file ends up holding only this run's header and rows |
| Accumulation.RunKeptFile | benchapps.py:296-299 | a kept file keeps its lines and gets this run's rows, with no second header |
| Accumulation.RunUntouched | benchapps.py:294-299 | a file no job writes to is unchanged by the run |
| Evaluator.Listed | benchapps.py:200-202 | the clusters files are exactly the non-hidden non-directory entries |
| Evaluator.ListedAppend | benchapps.py:200-202 | listing the files of a concatenation lists each part in turn, so the listing keeps enumeration order |
| Evaluator.ListedOne | benchapps.py:200-202 | a single entry is listed exactly when it is a non-hidden file |
| Evaluator.ListedUnique | benchapps.py:200-202 | a directory of distinctly named entries lists distinctly named files |
| Evaluator.GroupShuffle | benchapps.py:132-136 | an accepted entry matches `<caption>*` and is a directory |
| Evaluator.GroupShuffleSpec | benchapps.py:132-179 | an entry is accepted exactly when it matches `<caption>*`, is a directory and passes the name filters |
| Evaluator.GroupJobs | benchapps.py:200-220 | job k of a group evaluates listed file k of the group directory, and every job of the group writes the group's accumulation file |
| Evaluator.GroupJobsDistinct | benchapps.py:200-220 | distinctly named files of a group give jobs with distinct clusters paths |
| Evaluator.JobOf | benchapps.py:205-220 | a job reads `<group dir>/<file>`, writes the group's `.measure` accumulation file, and is named `<measure>_<group>_<alg>` |
| Evaluator.JobOfSpec | benchapps.py:205-220 | a job's name, clusters path, accumulation file, caption and log base are the derived names of its group and file |
| Evaluator.EvalGeneric | benchapps.py:111-231 | the corrected evaluation: a plan exists exactly when the assertions pass, its task and profile names are the derived ones, and an untidy plan removes nothing; with no group directory the plan is empty and only the warning remains |
| Evaluator.JobCount | benchapps.py:132-220 | the plan has exactly one job per listed file of every accepted group |
| Evaluator.JobsComplete | benchapps.py:132-220 | every listed file of an accepted group gets its job |
| Evaluator.JobsSound | benchapps.py:132-220 | every job comes from a listed file of an accepted group |
| Evaluator.JobsUseGroupOutputs | benchapps.py:191-220 | every job writes to its group's accumulation file |
| Evaluator.PlanGroups | benchapps.py:132-179 | one group plan per accepted directory entry, so never more than there are entries |
| Evaluator.EvalGenericAsWritten | benchapps.py:111-231 | as written, evaluation fails exactly when the assertions fail or no entry matching `<caption>*` is a directory, and otherwise gives the corrected plan |
| Evaluator.NoGroupsWarningOnly | benchapps.py:132-231 | with no matching group directory, the corrected evaluation gives an empty plan while the code as written fails |
| Evaluator.EmptyListingUnbound | benchapps.py:222-231 | on an empty listing, the corrected evaluation succeeds with no jobs and the code as written fails |
| Evaluator.EvalTidy | benchapps.py:185-197 | under tidy, every job's accumulation file is removed before the jobs run; otherwise none is |
| Evaluator.JobOutputExtension | benchapps.py:195 | every job's accumulation file ends in `.` plus the measure name |
| Evaluator.EvalAlgorithm | benchapps.py:246-445 | a malformed path id or an unknown measure fails, the latter with `Unexpected measure: <name>` |
| Evaluator.EvalAlgorithmPlan | benchapps.py:438-443 | a dispatched plan writes `.<measure>` files; `mod` and `nmi` remove them all first, `nmi_s` none |
| Runs.TidyRunStartsEmpty | benchapps.py:185-197 | after a `mod` or `nmi` run a job's accumulation file holds only this run's header and rows |
| Runs.NmiSExtensionDistinct | benchapps.py:195 | a `.nmi_s` file is never a `.nmi` or `.mod` file |
| Runs.UntidyRunKeepsLines | benchapps.py:443 | a run that removes nothing keeps every file's previous lines in front |
| Runs.UntidyRunOtherFiles | benchapps.py:443 | a run that removes nothing leaves files its jobs do not write unchanged |
| Runs.NmiSRunKeepsResults | benchapps.py:441-443 | an `nmi_s` run in the shared `nmi/` directory keeps all previous lines and leaves the `.nmi` results unchanged |

## Findings

| source | as written | input that shows it | evidently intended | confidence | as-written member | corrected member |
|---|---|---|---|---|---|---|
| benchapps.py:222-231 | when no job was added, the closing warning formats `clsname`, which is assigned only at line 136 inside the group loop; if no listed entry matches `<caption>*` and is a directory, it is unbound and the call raises `UnboundLocalError` | a valid request for `networks/net.nse` with an empty clusters listing | print the warning and return with nothing evaluated | not executed | Evaluator.EvalGenericAsWritten | Evaluator.EvalGeneric |

`Evaluator.EmptyListingUnbound` exhibits the failure on the empty listing. `Evaluator.NoGroupsWarningOnly` proves
the corrected, warning-only empty plan for every listing without a matching group directory.

## Left out

- File system I/O is not modelled:
  - `os.path.exists`, `dirempty`, `backupPath`, `os.makedirs`, `shutil.rmtree` and `os.remove`. A plan records the
    directories and files they would act on.
  - `glob.iglob` and `os.path.isdir`. They are replaced by a listing given as data, in enumeration order.
- The execution pool, `Job`/`Task` objects and the submission loop (lines 222-228) are processes and
  scheduling, and so are not modelled. The closing warning (lines 229-231) is modelled only as far as the
  finding above goes.
- The order in which jobs finish is a parameter of a run.
- The argument tuples of the `*Evaluate` callbacks and `LD_LIBRARY_PATH` are not modelled. They only form
  command lines.
- The `onjobdone` forwarding of `mod` (lines 300-305) is not modelled. It calls code outside this file.
- The empty aggregation hooks `modAggregate` and `nmixAggregate` (lines 412-435) have no effect, so they are not modelled.
- Floating-point parsing and formatting are abstract:
  - `parseFloat` and `float()` are parameters that may fail;
  - formatting a value is a rendering function.
- Concurrent appends to one accumulation file are not modelled. Two jobs finding it empty at once would both
  write the header. Appends are taken as sequential.
- Warnings printed on invalid path ids, shuffles or outputs are not modelled. They have no effect on the result.
- `escapePathWildcards` is taken as exact. The glob pattern matches names that start with the caption.
- Directory entry names are assumed to contain no `/`.
- `PyStr.IsInt`: Python 2 `int()` also accepts whitespace between the sign and the digits, and the model
  rejects such text. The shuffle (`Naming.ShuffleOf`), path-id (`Naming.HasPathId`) and instance
  (`Preparer.DropInstance`) tests inherit this. Nothing in the naming convention produces such text.
- `Preparer.CoalescedIsPrefix`: the coalescing lemmas assume a task path whose directory part is non-empty
  and has no repeated trailing slashes (`Preparer.PlainDir`). All callers pass `results/…` paths.
- `PyStr.Replace`: its own contract states only the case where the replacement equals the pattern. Its value
  for a non-empty pattern is stated by `PyStr.ReplaceFirst`, together with `PyStr.ReplaceNoMatch`.
- `Naming.LogsDir`: its own contract states only the cases where the path is left unchanged. The rewriting of
  a group path is stated by `Naming.LogsDirOfGroup`.
- `Preparer.MainPathIsPrefix`: stated under the same `Preparer.PlainDir` assumption, for the same reason.
- `Naming.LogsDirOfGroup`: stated for algorithm names without `/` that do not end in `clusters`. For a name
  such as `myclusters`, `replace` also rewrites the earlier `clusters/` that ends the algorithm directory.
  The same holds for `Naming.MeasureDirOf` and `Naming.AccumulationFileOf`.
- The `execpool` argument and its assertion are not modelled, because the plan does not use a pool.
- In `execScp`, the assertions on `asym` and `timeout` (line 577) are not modelled, because those arguments only
  shape the command line. The checks on `netfile` (line 577) and on the task name (line 583) are modelled
  together by `Preparer.ScpTaskPaths`: an empty path has an empty base name.

=== FILE: accumulation.dfy ===
/**
 * The accumulation files of an evaluation: when a job finishes, its measured
 * value is read from its standard output and appended, with the job caption,
 * to the accumulation file of its group; an empty file first gets the
 * measure's header. A file is its sequence of lines (without the newline).
 * The measured values are floating-point numbers in the program; here they are
 * of an abstract type `V`, produced by abstract parsers and printed by an
 * abstract `render`.
 */
module Accumulation {
  import opened Wrappers
  import opened PyStr
  import opened Measures

  type Lines = seq<string>

  /** The prefix of the modularity evaluator's output line. */
  const ModPrefix: string := "mod: "

  /**
   * The number readers: `leading` reads a number at the start of a text
   * (`parseFloat(text)[0]`, absent when none is found), `whole` reads the
   * whole text as a number (`float(text)`, absent when it raises).
   */
  datatype Parsers<V> = Parsers(leading: string -> Option<V>, whole: string -> Option<V>)

  /** The value a finished job reports, or None when its output has an invalid format. */
  function Extract<V>(m: Measure, ps: Parsers<V>, output: string): (r: Option<V>)
    ensures m == Mod && !StartsWith(output, ModPrefix) ==> r == None
    ensures m == Mod && StartsWith(output, ModPrefix) ==> r == ps.leading(output[|ModPrefix|..])
    ensures m != Mod ==> r == ps.whole(output)
  {
    match m
    case Mod => if StartsWith(output, ModPrefix) then ps.leading(output[|ModPrefix|..]) else None
    case Nmi => ps.whole(output)
    case NmiS => ps.whole(output)
  }

  /** `'{}\t{}'.format(value, caption)` */
  function Row<V>(render: V -> string, v: V, caption: string): string
  {
    render(v) + "\t" + caption
  }

  /** A finished job: its standard output and its caption. */
  datatype Completion = Completion(output: string, caption: string)

  /**
   * The `aggLevs` callback on one file: a value read from the output is
   * appended as a row, preceded by the header when the file is empty; an
   * invalid output leaves the file as it is.
   */
  function Append<V>(m: Measure, ps: Parsers<V>, render: V -> string, file: Lines, c: Completion): (r: Lines)
    ensures Extract(m, ps, c.output).None? <==> r == file
    ensures Extract(m, ps, c.output).Some? ==>
              |r| > |file| && r[..|file|] == file &&
              r[|r| - 1] == Row(render, Extract(m, ps, c.output).value, c.caption) &&
              (file == [] <==> |r| == |file| + 2) &&
              (file == [] ==> r[0] == m.Header())
  {
    match Extract(m, ps, c.output)
    case None => file
    case Some(v) =>
      var header := if file == [] then [m.Header()] else [];
      file + header + [Row(render, v, c.caption)]
  }

  /** The file after the jobs finish in the order given: its previous lines are kept in front. */
  function Accumulate<V>(m: Measure, ps: Parsers<V>, render: V -> string, file: Lines, cs: seq<Completion>): (r: Lines)
    ensures |r| >= |file| && r[..|file|] == file
  {
    if cs == [] then file
    else
      assert Append(m, ps, render, Accumulate(m, ps, render, file, cs[..|cs| - 1]), cs[|cs| - 1])[..|file|]
             == Accumulate(m, ps, render, file, cs[..|cs| - 1])[..|file|];
      Append(m, ps, render, Accumulate(m, ps, render, file, cs[..|cs| - 1]), cs[|cs| - 1])
  }

  /**
   * Reference definition: the rows of the jobs whose output holds a value, in
   * finishing order. Its contract is only a length bound; what the file holds
   * in terms of these rows is proved by `AccumulateRows`.
   */
  function Rows<V>(m: Measure, ps: Parsers<V>, render: V -> string, cs: seq<Completion>): (r: seq<string>)
    ensures |r| <= |cs|
  {
    if cs == [] then []
    else
      var last := cs[|cs| - 1];
      Rows(m, ps, render, cs[..|cs| - 1]) +
      match Extract(m, ps, last.output)
      case None => []
      case Some(v) => [Row(render, v, last.caption)]
  }

  /** The header that accumulating `rows` onto `file` adds: only to an empty file, and only with a row. */
  function HeaderFor(m: Measure, file: Lines, rows: seq<string>): Lines
  {
    if file == [] && rows != [] then [m.Header()] else []
  }

  /**
   * Accumulation keeps the file's lines, adds the header exactly when the file
   * was empty and some job reported a value, then one row per such job in
   * finishing order; jobs with invalid output leave no trace.
   */
  lemma {:induction false} AccumulateRows<V>(m: Measure, ps: Parsers<V>, render: V -> string,
                                             file: Lines, cs: seq<Completion>)
    ensures Accumulate(m, ps, render, file, cs)
            == file + HeaderFor(m, file, Rows(m, ps, render, cs)) + Rows(m, ps, render, cs)
  {
    if cs != [] {
      var init := cs[..|cs| - 1];
      var last := cs[|cs| - 1];
      AccumulateRows(m, ps, render, file, init);
      var before := Accumulate(m, ps, render, file, init);
      var rows := Rows(m, ps, render, init);
      assert Accumulate(m, ps, render, file, cs) == Append(m, ps, render, before, last);
      AppendAfterRows(m, ps, render, file, rows, last);
    }
  }

  /** The step of `AccumulateRows`: one more finished job on a file holding `file`, its header and `rows`. */
  lemma AppendAfterRows<V>(m: Measure, ps: Parsers<V>, render: V -> string,
                           file: Lines, rows: seq<string>, last: Completion)
    ensures var before := file + HeaderFor(m, file, rows) + rows;
            var more := rows + match Extract(m, ps, last.output)
                               case None => []
                               case Some(v) => [Row(render, v, last.caption)];
            Append(m, ps, render, before, last) == file + HeaderFor(m, file, more) + more
  {
    var before := file + HeaderFor(m, file, rows) + rows;
    match Extract(m, ps, last.output)
    case None =>
      assert rows + [] == rows;
    case Some(v) =>
      var row := Row(render, v, last.caption);
      if file == [] && rows == [] {
        assert before == [];
        assert Append(m, ps, render, before, last) == [m.Header(), row];
      } else {
        assert HeaderFor(m, file, rows + [row]) == HeaderFor(m, file, rows);
        assert before != [];
        assert Append(m, ps, render, before, last) == before + [row];
      }
  }

  /**
   * Starting from an empty file, k jobs that all report a value give exactly
   * one header line followed by their k rows in finishing order.
   */
  lemma AllReported<V>(m: Measure, ps: Parsers<V>, render: V -> string, cs: seq<Completion>)
    requires |cs| > 0
    requires forall i :: 0 <= i < |cs| ==> Extract(m, ps, cs[i].output).Some?
    ensures var r := Accumulate(m, ps, render, [], cs);
            |r| == |cs| + 1 && r[0] == m.Header() &&
            forall i :: 0 <= i < |cs| ==> r[i + 1] == Row(render, Extract(m, ps, cs[i].output).value, cs[i].caption)
  {
    AccumulateRows(m, ps, render, [], cs);
    RowsAllReported(m, ps, render, cs);
  }

  lemma {:induction false} RowsAllReported<V>(m: Measure, ps: Parsers<V>, render: V -> string, cs: seq<Completion>)
    requires forall i :: 0 <= i < |cs| ==> Extract(m, ps, cs[i].output).Some?
    ensures var rows := Rows(m, ps, render, cs);
            |rows| == |cs| &&
            forall i :: 0 <= i < |cs| ==> rows[i] == Row(render, Extract(m, ps, cs[i].output).value, cs[i].caption)
  {
    if cs != [] {
      var init := cs[..|cs| - 1];
      RowsAllReported(m, ps, render, init);
    }
  }

  /** Jobs with an invalid output change nothing: for `mod`, an output without the `mod: ` prefix. */
  lemma {:induction false} InvalidOutputsIgnored<V>(m: Measure, ps: Parsers<V>, render: V -> string,
                                                    file: Lines, cs: seq<Completion>)
    requires forall i :: 0 <= i < |cs| ==> Extract(m, ps, cs[i].output).None?
    ensures Accumulate(m, ps, render, file, cs) == file
  {
    if cs != [] {
      InvalidOutputsIgnored(m, ps, render, file, cs[..|cs| - 1]);
    }
  }

  // ---- the files of a run ----

  /** The accumulation files by path; a missing file reads as empty. */
  type Store = map<string, Lines>

  function Read(store: Store, path: string): Lines
  {
    if path in store then store[path] else []
  }

  /** A finished job together with the accumulation file it appends to. */
  datatype Done = Done(file: string, completion: Completion)

  /** One job's callback applied to the store; a file is created only by a value. */
  function Complete<V>(m: Measure, ps: Parsers<V>, render: V -> string, store: Store, d: Done): (r: Store)
    ensures forall p :: p != d.file ==> Read(r, p) == Read(store, p)
    ensures Read(r, d.file) == Append(m, ps, render, Read(store, d.file), d.completion)
  {
    if Extract(m, ps, d.completion.output).None? then store
    else store[d.file := Append(m, ps, render, Read(store, d.file), d.completion)]
  }

  /** The store after the jobs finish in the order given. */
  function CompleteAll<V>(m: Measure, ps: Parsers<V>, render: V -> string, store: Store, ds: seq<Done>): Store
  {
    if ds == [] then store
    else Complete(m, ps, render, CompleteAll(m, ps, render, store, ds[..|ds| - 1]), ds[|ds| - 1])
  }

  /**
   * Reference definition: the completions of the jobs appending to `path`, in
   * finishing order. Its contract is only a length bound; that each file
   * accumulates exactly these completions is proved by `CompleteAllPerFile`.
   */
  function OnFile(ds: seq<Done>, path: string): (r: seq<Completion>)
    ensures |r| <= |ds|
  {
    if ds == [] then []
    else OnFile(ds[..|ds| - 1], path) + (if ds[|ds| - 1].file == path then [ds[|ds| - 1].completion] else [])
  }

  /** Each file accumulates exactly the jobs appending to it, in their order; the other jobs do not touch it. */
  lemma {:induction false} CompleteAllPerFile<V>(m: Measure, ps: Parsers<V>, render: V -> string,
                                                 store: Store, ds: seq<Done>, path: string)
    ensures Read(CompleteAll(m, ps, render, store, ds), path)
            == Accumulate(m, ps, render, Read(store, path), OnFile(ds, path))
  {
    if ds != [] {
      var init := ds[..|ds| - 1];
      CompleteAllPerFile(m, ps, render, store, init, path);
      var cs := OnFile(init, path);
      if ds[|ds| - 1].file == path {
        assert OnFile(ds, path) == cs + [ds[|ds| - 1].completion];
        assert (cs + [ds[|ds| - 1].completion])[..|cs|] == cs;
      } else {
        assert OnFile(ds, path) == cs;
      }
    }
  }

  /** The files removed before the jobs run (`os.remove` of the accumulation files under tidy). */
  function Clear(store: Store, cleared: seq<string>): (r: Store)
    ensures forall p :: Read(r, p) == if p in cleared then [] else Read(store, p)
  {
    map p | p in store && p !in cleared :: store[p]
  }

  /** A run: the files to clear are removed while the jobs are planned, then the jobs finish. */
  function Run<V>(m: Measure, ps: Parsers<V>, render: V -> string, store: Store,
                  cleared: seq<string>, ds: seq<Done>): Store
  {
    CompleteAll(m, ps, render, Clear(store, cleared), ds)
  }

  /** A cleared file is emptied before any append of the run: it holds only this run's header and rows. */
  lemma RunClearedFile<V>(m: Measure, ps: Parsers<V>, render: V -> string, store: Store,
                          cleared: seq<string>, ds: seq<Done>, path: string)
    requires path in cleared
    ensures var rows := Rows(m, ps, render, OnFile(ds, path));
            Read(Run(m, ps, render, store, cleared, ds), path) == HeaderFor(m, [], rows) + rows
  {
    CompleteAllPerFile(m, ps, render, Clear(store, cleared), ds, path);
    AccumulateRows(m, ps, render, [], OnFile(ds, path));
  }

  /** A file not cleared keeps its previous lines, followed by this run's rows (and no second header). */
  lemma RunKeptFile<V>(m: Measure, ps: Parsers<V>, render: V -> string, store: Store,
                       cleared: seq<string>, ds: seq<Done>, path: string)
    requires path !in cleared
    ensures var old_ := Read(store, path);
            var rows := Rows(m, ps, render, OnFile(ds, path));
            Read(Run(m, ps, render, store, cleared, ds), path) == old_ + HeaderFor(m, old_, rows) + rows
  {
    CompleteAllPerFile(m, ps, render, Clear(store, cleared), ds, path);
    AccumulateRows(m, ps, render, Read(store, path), OnFile(ds, path));
  }

  /** No job appends to this file: nothing to read. */
  lemma {:induction false} OnOtherFiles(ds: seq<Done>, path: string)
    requires forall i :: 0 <= i < |ds| ==> ds[i].file != path
    ensures OnFile(ds, path) == []
  {
    if ds != [] {
      OnOtherFiles(ds[..|ds| - 1], path);
    }
  }

  /** A file neither cleared nor appended to by any job of the run is left as it was. */
  lemma RunUntouched<V>(m: Measure, ps: Parsers<V>, render: V -> string, store: Store,
                        cleared: seq<string>, ds: seq<Done>, path: string)
    requires path !in cleared
    requires forall i :: 0 <= i < |ds| ==> ds[i].file != path
    ensures Read(Run(m, ps, render, store, cleared, ds), path) == Read(store, path)
  {
    OnOtherFiles(ds, path);
    CompleteAllPerFile(m, ps, render, Clear(store, cleared), ds, path);
  }
}

=== FILE: evaluator.dfy ===
/**
 * `evalGeneric` and `evalAlgorithm` as pure planning: from the request and a
 * listing of the algorithm's cluster directory, the task name, the profile
 * path, the log directories and accumulation files prepared for the run, and
 * one job per clusters file of every accepted cluster group, in enumeration
 * order. The listing stands for the `glob` enumeration and `isdir` tests; the
 * execution pool that runs the jobs is not modelled.
 */
module Evaluator {
  import opened Wrappers
  import opened PyStr
  import opened PyPath
  import opened Naming
  import opened Measures

  /** An entry of a cluster group directory. */
  datatype FileEntry = FileEntry(name: string, isDir: bool)

  /** An entry of `results/<algname>/clusters/`, with its own entries when it is a directory. */
  datatype GroupEntry = GroupEntry(name: string, isDir: bool, files: seq<FileEntry>)

  /** The arguments of `evalGeneric` that shape the plan. */
  datatype Request = Request(evalname: string, algname: string, basefile: string,
                             measdir: string, pathid: string, tidy: bool)

  /** What `evalfile` receives for one clusters file. */
  datatype Job = Job(name: string, clusters: string, taskOutput: string, caption: string, logBase: string)

  /** An accepted cluster group: its log directory, accumulation file and jobs. */
  datatype GroupPlan = GroupPlan(logsDir: string, taskOutput: string, jobs: seq<Job>)

  /**
   * A planned evaluation: the task, the profile file, the log directories made
   * (after removal under tidy), the accumulation files removed, and the jobs.
   */
  datatype Plan = Plan(taskName: string, profile: string, logDirs: seq<string>,
                       cleared: seq<string>, jobs: seq<Job>)

  /** `glob` skips names starting with '.' for a `*` pattern. */
  predicate Hidden(name: string)
  {
    |name| > 0 && name[0] == '.'
  }

  /** The entries of a group directory the `glob` of its contents yields that are not directories, in enumeration order. */
  function Listed(files: seq<FileEntry>): (r: seq<FileEntry>)
    ensures forall f :: f in r <==> f in files && !f.isDir && !Hidden(f.name)
    ensures |r| <= |files|
  {
    if files == [] then []
    else (if Kept(files[0]) then [files[0]] else []) + Listed(files[1..])
  }

  /** A file the `glob` of a group directory yields and that is not a directory. */
  predicate Kept(f: FileEntry)
  {
    !f.isDir && !Hidden(f.name)
  }

  /**
   * `Listed` is the order-preserving filter of `Kept`: it distributes over
   * concatenation, and a single entry is kept exactly when `Kept` holds.
   */
  lemma {:induction false} ListedAppend(a: seq<FileEntry>, b: seq<FileEntry>)
    ensures Listed(a + b) == Listed(a) + Listed(b)
    decreases |a|
  {
    if a == [] {
      assert a + b == b;
    } else {
      var h := if Kept(a[0]) then [a[0]] else [];
      assert (a + b)[0] == a[0];
      assert (a + b)[1..] == a[1..] + b;
      ListedAppend(a[1..], b);
      calc {
        Listed(a + b);
        h + Listed(a[1..] + b);
        h + (Listed(a[1..]) + Listed(b));
        { AppendAssoc(h, Listed(a[1..]), Listed(b)); }
        h + Listed(a[1..]) + Listed(b);
        Listed(a) + Listed(b);
      }
    }
  }

  /** A single entry is listed exactly when it is kept. */
  lemma ListedOne(f: FileEntry)
    ensures Listed([f]) == if Kept(f) then [f] else []
  {
    assert [f][1..] == [];
  }

  /** The entries of a directory have distinct names. */
  predicate UniqueNames(fs: seq<FileEntry>)
  {
    forall i, j :: 0 <= i < j < |fs| ==> fs[i].name != fs[j].name
  }

  /** Filtering keeps names distinct. */
  lemma {:induction false} ListedUnique(fs: seq<FileEntry>)
    requires UniqueNames(fs)
    ensures UniqueNames(Listed(fs))
    decreases |fs|
  {
    if fs != [] {
      var rest := fs[1..];
      assert UniqueNames(rest) by {
        forall i, j | 0 <= i < j < |rest| ensures rest[i].name != rest[j].name {
          assert rest[i] == fs[i + 1] && rest[j] == fs[j + 1];
        }
      }
      ListedUnique(rest);
      var lr := Listed(rest);
      forall f | f in lr ensures f.name != fs[0].name {
        var k :| 0 <= k < |rest| && rest[k] == f;
        assert fs[k + 1] == f;
      }
    }
  }

  /** The caption of the request's base file. */
  function Caption(req: Request): string
  {
    TaskCaption(req.basefile)
  }

  /**
   * The shuffle index of an entry of the clusters directory when it is a
   * cluster group the evaluation accepts: it matches `<caption>*`, is a
   * directory, and passes the path-id, instance and shuffle filters.
   */
  function GroupShuffle(req: Request, g: GroupEntry): (r: Option<string>)
    ensures r.Some? ==> StartsWith(g.name, Caption(req)) && g.isDir
  {
    if !StartsWith(g.name, Caption(req)) || !g.isDir then None
    else Classify(Caption(req), req.pathid, Basename(ClustersBase(req.algname, g.name)))
  }

  /**
   * The job of clusters file `f` in accepted group `g` with shuffle index
   * `shuffle`: it evaluates `f` inside the group's directory, appends to the
   * group's accumulation file, and is named after the group.
   */
  function JobOf(req: Request, g: GroupEntry, shuffle: string, f: FileEntry): (r: Job)
    ensures r.clusters == ClustersBase(req.algname, g.name) + "/" + f.name
    ensures r.taskOutput == TaskOutput(LogsDir(ClustersBase(req.algname, g.name), req.measdir),
                                       shuffle, req.pathid, req.evalname)
    ensures EndsWith(r.taskOutput, "." + req.evalname)
    ensures '/' !in g.name ==> r.name == JobName(req.evalname, g.name, req.algname)
  {
    assert '/' !in g.name ==> Basename(ClustersBase(req.algname, g.name)) == g.name by {
      if '/' !in g.name { ClsNameOfGroup(req.algname, g.name); }
    }
    var clsbase := ClustersBase(req.algname, g.name);
    var clsname := Basename(clsbase);
    var logsbase := LogsDir(clsbase, req.measdir);
    var cfile := clsbase + "/" + f.name;
    var jbase := SplitExt(Basename(cfile)).0;
    Job(JobName(req.evalname, clsname, req.algname), cfile,
        TaskOutput(logsbase, shuffle, req.pathid, req.evalname),
        JobCaption(clsname, jbase, shuffle),
        LogsBase(logsbase, clsname, jbase))
  }

  /** `'/'.join((logsbase, jbasename))` with the base name anchored on the group name. */
  function LogsBase(logsbase: string, clsname: string, jbase: string): string
  {
    logsbase + "/" + Anchored(clsname, jbase).1
  }

  /**
   * The jobs of one accepted group, one per listed file in listing order: job
   * `k` evaluates listed file `k` in the group directory, and every job writes
   * the group's one accumulation file.
   */
  function GroupJobs(req: Request, g: GroupEntry, shuffle: string): (r: seq<Job>)
    ensures |r| == |Listed(g.files)|
    ensures forall k :: 0 <= k < |r| ==> r[k] == JobOf(req, g, shuffle, Listed(g.files)[k])
    ensures forall k :: 0 <= k < |r| ==>
              r[k].clusters == ClustersBase(req.algname, g.name) + "/" + Listed(g.files)[k].name &&
              r[k].taskOutput == TaskOutput(LogsDir(ClustersBase(req.algname, g.name), req.measdir),
                                            shuffle, req.pathid, req.evalname)
  {
    var fs := Listed(g.files);
    seq(|fs|, k requires 0 <= k < |fs| => JobOf(req, g, shuffle, fs[k]))
  }

  /** Files of distinct names in a group are evaluated as distinct clusters paths. */
  lemma GroupJobsDistinct(req: Request, g: GroupEntry, shuffle: string)
    requires UniqueNames(g.files)
    ensures var r := GroupJobs(req, g, shuffle);
            forall i, j :: 0 <= i < j < |r| ==> r[i].clusters != r[j].clusters
  {
    ListedUnique(g.files);
    var r := GroupJobs(req, g, shuffle);
    var fs := Listed(g.files);
    var pre := ClustersBase(req.algname, g.name) + "/";
    forall i, j | 0 <= i < j < |r| ensures r[i].clusters != r[j].clusters {
      assert r[i].clusters == pre + fs[i].name && r[j].clusters == pre + fs[j].name;
      assert (pre + fs[i].name)[|pre|..] == fs[i].name;
      assert (pre + fs[j].name)[|pre|..] == fs[j].name;
    }
  }

  /** The plan of one entry of the clusters directory, or None when it is skipped. */
  function PlanGroup(req: Request, g: GroupEntry): Option<GroupPlan>
  {
    match GroupShuffle(req, g)
    case None => None
    case Some(shuffle) =>
      var logsbase := LogsDir(ClustersBase(req.algname, g.name), req.measdir);
      Some(GroupPlan(logsbase, TaskOutput(logsbase, shuffle, req.pathid, req.evalname),
                     GroupJobs(req, g, shuffle)))
  }

  /** The plans of the accepted groups, in enumeration order. */
  function PlanGroups(req: Request, gs: seq<GroupEntry>): (r: seq<GroupPlan>)
    ensures |r| == AcceptedGroups(req, gs) <= |gs|
  {
    if gs == [] then []
    else
      (match PlanGroup(req, gs[0]) case None => [] case Some(p) => [p]) + PlanGroups(req, gs[1..])
  }

  /** The jobs of the group plans, group after group. */
  function AllJobs(ps: seq<GroupPlan>): seq<Job>
  {
    if ps == [] then [] else ps[0].jobs + AllJobs(ps[1..])
  }

  /** The log directories of the group plans. */
  function LogDirsOf(ps: seq<GroupPlan>): (r: seq<string>)
    ensures |r| == |ps| && forall i :: 0 <= i < |ps| ==> r[i] == ps[i].logsDir
  {
    seq(|ps|, i requires 0 <= i < |ps| => ps[i].logsDir)
  }

  /** The accumulation files of the group plans. */
  function OutputsOf(ps: seq<GroupPlan>): (r: seq<string>)
    ensures |r| == |ps|
  {
    if ps == [] then [] else [ps[0].taskOutput] + OutputsOf(ps[1..])
  }

  /** A group's `clsname` is its entry name. */
  lemma ClsNameOfGroup(algname: string, name: string)
    requires '/' !in name
    ensures Basename(ClustersBase(algname, name)) == name
  {
    var pre := ResDir + algname + "/" + ClsDir;
    assert pre[|pre| - 1] == '/';
    BasenameAfterSlash(pre, name);
  }

  /**
   * An entry of the clusters directory is accepted exactly when it matches
   * `<caption>*`, is a directory and passes the group filters on its name.
   */
  lemma GroupShuffleSpec(req: Request, g: GroupEntry)
    requires '/' !in g.name
    ensures GroupShuffle(req, g) ==
              if StartsWith(g.name, Caption(req)) && g.isDir then Classify(Caption(req), req.pathid, g.name) else None
  {
    ClsNameOfGroup(req.algname, g.name);
  }

  /**
   * The job of clusters file `f` of group `g`: named after the measure, the
   * group and the algorithm; evaluating `<clusters dir>/<g>/<f>`; captioned
   * and logged by the file's base name.
   */
  lemma JobOfSpec(req: Request, g: GroupEntry, shuffle: string, f: FileEntry)
    requires '/' !in g.name && '/' !in f.name
    ensures var j := JobOf(req, g, shuffle, f);
            var jbase := SplitExt(f.name).0;
            var logsbase := LogsDir(ClustersBase(req.algname, g.name), req.measdir);
            j.name == JobName(req.evalname, g.name, req.algname) &&
            j.clusters == ClustersBase(req.algname, g.name) + "/" + f.name &&
            j.taskOutput == TaskOutput(logsbase, shuffle, req.pathid, req.evalname) &&
            j.caption == JobCaption(g.name, jbase, shuffle) &&
            j.logBase == logsbase + "/" + Anchored(g.name, jbase).1 &&
            (f.name != [] ==> jbase != [])
  {
    ClsNameOfGroup(req.algname, g.name);
    BasenameAfterSlash(ClustersBase(req.algname, g.name) + "/", f.name);
  }

  /** The requests `evalGeneric`'s assertions let through. */
  predicate ValidRequest(req: Request)
  {
    req.basefile != [] && req.evalname != [] && req.algname != [] &&
    (req.pathid == [] || req.pathid[0] == SepPathId) &&
    Caption(req) != [] && SplitExt(Caption(req)).1 == []
  }

  /** `evalGeneric`: the failed assertion, or the plan of the evaluation. */
  function EvalGeneric(req: Request, listing: seq<GroupEntry>): (r: Result<Plan>)
    ensures r.Success? <==> ValidRequest(req)
    ensures r.Success? ==>
              r.value.taskName == TaskName(req.evalname, Caption(req), req.pathid, req.algname) &&
              r.value.profile == ProfilePath(req.algname, req.evalname)
    ensures r.Success? && !req.tidy ==> r.value.cleared == []
  {
    if req.basefile == [] || req.evalname == [] || req.algname == [] then
      Failure("Parameters must be defined")
    else if req.pathid != [] && req.pathid[0] != SepPathId then
      Failure("pathid must include pathid separator")
    else if Caption(req) == [] || SplitExt(Caption(req)).1 != [] then
      Failure("The base file name must exists and should not be shuffled")
    else
      var ps := PlanGroups(req, listing);
      Success(Plan(TaskName(req.evalname, Caption(req), req.pathid, req.algname),
                   ProfilePath(req.algname, req.evalname),
                   LogDirsOf(ps),
                   if req.tidy then OutputsOf(ps) else [],
                   AllJobs(ps)))
  }

  /** An entry that reaches the binding of `clsname`: it matches `<caption>*` and is a directory. */
  predicate BindsGroupName(req: Request, g: GroupEntry)
  {
    StartsWith(g.name, Caption(req)) && g.isDir
  }

  /** A listing none of whose entries binds `clsname` yields no group plan. */
  lemma {:induction false} NoGroupsNoPlans(req: Request, gs: seq<GroupEntry>)
    requires forall i :: 0 <= i < |gs| ==> !BindsGroupName(req, gs[i])
    ensures PlanGroups(req, gs) == []
  {
    if gs != [] {
      assert !BindsGroupName(req, gs[0]);
      assert forall i :: 0 <= i < |gs[1..]| ==> !BindsGroupName(req, gs[1..][i]) by {
        forall i | 0 <= i < |gs[1..]| ensures !BindsGroupName(req, gs[1..][i]) { assert gs[1..][i] == gs[i + 1]; }
      }
      NoGroupsNoPlans(req, gs[1..]);
    }
  }

  /**
   * `evalGeneric` as written: a plan without jobs reports the group name last
   * bound by the loop, and when no entry bound one that reference fails with
   * an unbound-local error instead of printing the warning.
   */
  function EvalGenericAsWritten(req: Request, listing: seq<GroupEntry>): (r: Result<Plan>)
    ensures r.Failure? <==> !ValidRequest(req) || forall i :: 0 <= i < |listing| ==> !BindsGroupName(req, listing[i])
    ensures r.Success? ==> r == EvalGeneric(req, listing)
  {
    match EvalGeneric(req, listing)
    case Failure(e) => Failure(e)
    case Success(plan) =>
      if plan.jobs == [] && forall i :: 0 <= i < |listing| ==> !BindsGroupName(req, listing[i]) then
        Failure("local variable 'clsname' referenced before assignment")
      else
        assert (forall i :: 0 <= i < |listing| ==> !BindsGroupName(req, listing[i])) ==> plan.jobs == [] by {
          if forall i :: 0 <= i < |listing| ==> !BindsGroupName(req, listing[i]) {
            NoGroupsNoPlans(req, listing);
          }
        }
        Success(plan)
  }

  /**
   * The intended behaviour on a listing without any `<caption>*` directory: a
   * plan with no job and no log directory, where the code as written fails.
   */
  lemma NoGroupsWarningOnly(req: Request, listing: seq<GroupEntry>)
    requires ValidRequest(req)
    requires forall i :: 0 <= i < |listing| ==> !BindsGroupName(req, listing[i])
    ensures EvalGeneric(req, listing).Success?
    ensures EvalGeneric(req, listing).value.jobs == [] && EvalGeneric(req, listing).value.logDirs == []
    ensures EvalGenericAsWritten(req, listing).Failure?
  {
    NoGroupsNoPlans(req, listing);
  }

  /** The `mod` evaluation of `louvain` on `networks/net.nse`. */
  function NetRequest(): (req: Request)
    ensures ValidRequest(req)
  {
    TaskCaptionOf("networks", "net", "nse");
    SplitExtNoDot("net");
    Request("mod", "louvain", "networks" + "/" + "net" + "." + "nse", "mod/", "", true)
  }

  /** The smallest input showing the difference: an empty clusters directory. */
  lemma EmptyListingUnbound()
    ensures EvalGeneric(NetRequest(), []).Success? && EvalGeneric(NetRequest(), []).value.jobs == []
    ensures EvalGenericAsWritten(NetRequest(), []).Failure?
  {
    NoGroupsWarningOnly(NetRequest(), []);
  }

  // ---- properties of the plan ----

  /** Reference count: the accepted entries of a listing. */
  function AcceptedGroups(req: Request, gs: seq<GroupEntry>): (n: nat)
    ensures n <= |gs|
  {
    if gs == [] then 0
    else (if GroupShuffle(req, gs[0]).Some? then 1 else 0) + AcceptedGroups(req, gs[1..])
  }

  /** Reference count: the listed files of the accepted groups. */
  function AcceptedFiles(req: Request, gs: seq<GroupEntry>): nat
  {
    if gs == [] then 0
    else (if GroupShuffle(req, gs[0]).Some? then |Listed(gs[0].files)| else 0) + AcceptedFiles(req, gs[1..])
  }

  /** The plans of a listing: the first entry's plan, if any, then the rest's. */
  lemma PlanGroupsCons(req: Request, gs: seq<GroupEntry>)
    requires gs != []
    ensures var ps := PlanGroups(req, gs);
            var rest := PlanGroups(req, gs[1..]);
            match PlanGroup(req, gs[0])
            case None => ps == rest && AllJobs(ps) == AllJobs(rest)
            case Some(p) => ps == [p] + rest && AllJobs(ps) == p.jobs + AllJobs(rest) &&
                            p.jobs == GroupJobs(req, gs[0], GroupShuffle(req, gs[0]).value)
  {
    match PlanGroup(req, gs[0])
    case None =>
      assert PlanGroups(req, gs) == [] + PlanGroups(req, gs[1..]);
    case Some(p) =>
      var ps := PlanGroups(req, gs);
      assert ps == [p] + PlanGroups(req, gs[1..]);
      assert ps[1..] == PlanGroups(req, gs[1..]);
  }

  /** Exactly one job per listed (non-directory, non-hidden) file of each accepted group. */
  lemma {:induction false} JobCount(req: Request, gs: seq<GroupEntry>)
    ensures |AllJobs(PlanGroups(req, gs))| == AcceptedFiles(req, gs)
  {
    if gs != [] {
      PlanGroupsCons(req, gs);
      JobCount(req, gs[1..]);
    }
  }

  /** The jobs of an accepted first entry are jobs of the listing. */
  lemma FirstGroupJobIn(req: Request, gs: seq<GroupEntry>, j: Job)
    requires gs != [] && GroupShuffle(req, gs[0]).Some?
    requires j in GroupJobs(req, gs[0], GroupShuffle(req, gs[0]).value)
    ensures j in AllJobs(PlanGroups(req, gs))
  {
    PlanGroupsCons(req, gs);
  }

  /** The jobs of a listing's tail are jobs of the listing. */
  lemma TailJobIn(req: Request, gs: seq<GroupEntry>, j: Job)
    requires gs != [] && j in AllJobs(PlanGroups(req, gs[1..]))
    ensures j in AllJobs(PlanGroups(req, gs))
  {
    PlanGroupsCons(req, gs);
  }

  /** Every listed file of an accepted first entry gets its job. */
  lemma FirstGroupComplete(req: Request, gs: seq<GroupEntry>, f: FileEntry)
    requires gs != [] && GroupShuffle(req, gs[0]).Some? && f in Listed(gs[0].files)
    ensures JobOf(req, gs[0], GroupShuffle(req, gs[0]).value, f) in AllJobs(PlanGroups(req, gs))
  {
    var fs := Listed(gs[0].files);
    var k :| 0 <= k < |fs| && fs[k] == f;
    var jobs := GroupJobs(req, gs[0], GroupShuffle(req, gs[0]).value);
    assert jobs[k] in jobs;
    FirstGroupJobIn(req, gs, jobs[k]);
  }

  /** Every listed file of every accepted group gets its job. */
  lemma {:induction false} JobsComplete(req: Request, gs: seq<GroupEntry>, i: nat, f: FileEntry)
    requires i < |gs| && GroupShuffle(req, gs[i]).Some? && f in Listed(gs[i].files)
    ensures JobOf(req, gs[i], GroupShuffle(req, gs[i]).value, f) in AllJobs(PlanGroups(req, gs))
    decreases |gs|, 1
  {
    if i == 0 {
      FirstGroupComplete(req, gs, f);
    } else {
      LaterGroupComplete(req, gs, i, f);
    }
  }

  /** The step of `JobsComplete` for an entry after the first: its job is a job of the tail. */
  lemma {:induction false} LaterGroupComplete(req: Request, gs: seq<GroupEntry>, i: nat, f: FileEntry)
    requires 0 < i < |gs| && GroupShuffle(req, gs[i]).Some? && f in Listed(gs[i].files)
    ensures JobOf(req, gs[i], GroupShuffle(req, gs[i]).value, f) in AllJobs(PlanGroups(req, gs))
    decreases |gs|, 0
  {
    assert gs[1..][i - 1] == gs[i];
    JobsComplete(req, gs[1..], i - 1, f);
    TailJobIn(req, gs, JobOf(req, gs[i], GroupShuffle(req, gs[i]).value, f));
  }

  /** `j` is the job of listed file `f` of accepted group `g`. */
  predicate Produces(req: Request, g: GroupEntry, f: FileEntry, j: Job)
  {
    GroupShuffle(req, g).Some? && f in Listed(g.files) && j == JobOf(req, g, GroupShuffle(req, g).value, f)
  }

  /** Every job of an accepted group comes from one of its listed files. */
  lemma GroupJobSound(req: Request, g: GroupEntry, j: Job)
    requires GroupShuffle(req, g).Some?
    requires j in GroupJobs(req, g, GroupShuffle(req, g).value)
    ensures exists f :: Produces(req, g, f, j)
  {
    var jobs := GroupJobs(req, g, GroupShuffle(req, g).value);
    var k :| 0 <= k < |jobs| && jobs[k] == j;
    var f := Listed(g.files)[k];
    assert f in Listed(g.files);
    assert Produces(req, g, f, j);
  }

  /** A job of a listing that is not a job of its tail is a job of its first, accepted entry. */
  lemma FirstGroupJob(req: Request, gs: seq<GroupEntry>, j: Job)
    requires gs != [] && j in AllJobs(PlanGroups(req, gs)) && j !in AllJobs(PlanGroups(req, gs[1..]))
    ensures GroupShuffle(req, gs[0]).Some? && j in GroupJobs(req, gs[0], GroupShuffle(req, gs[0]).value)
  {
    PlanGroupsCons(req, gs);
  }

  /** Every job comes from a listed file of an accepted group. */
  lemma {:induction false} JobsSound(req: Request, gs: seq<GroupEntry>, j: Job)
    requires j in AllJobs(PlanGroups(req, gs))
    ensures exists i, f :: 0 <= i < |gs| && Produces(req, gs[i], f, j)
    decreases |gs|, 1
  {
    assert gs != [];
    if j in AllJobs(PlanGroups(req, gs[1..])) {
      LaterJobSound(req, gs, j);
    } else {
      FirstJobSound(req, gs, j);
    }
  }

  /** The step of `JobsSound` for a job of the tail: it comes from an entry after the first. */
  lemma {:induction false} LaterJobSound(req: Request, gs: seq<GroupEntry>, j: Job)
    requires gs != [] && j in AllJobs(PlanGroups(req, gs[1..]))
    ensures exists i, f :: 0 <= i < |gs| && Produces(req, gs[i], f, j)
    decreases |gs|, 0
  {
    JobsSound(req, gs[1..], j);
    var i, f :| 0 <= i < |gs[1..]| && Produces(req, gs[1..][i], f, j);
    assert gs[1..][i] == gs[i + 1];
    assert 0 <= i + 1 < |gs| && Produces(req, gs[i + 1], f, j);
  }

  /** The step of `JobsSound` for a job not of the tail: it comes from the first entry. */
  lemma FirstJobSound(req: Request, gs: seq<GroupEntry>, j: Job)
    requires gs != [] && j in AllJobs(PlanGroups(req, gs)) && j !in AllJobs(PlanGroups(req, gs[1..]))
    ensures exists i, f :: 0 <= i < |gs| && Produces(req, gs[i], f, j)
  {
    FirstGroupJob(req, gs, j);
    GroupJobSound(req, gs[0], j);
    var f :| Produces(req, gs[0], f, j);
    assert 0 < |gs| && Produces(req, gs[0], f, j);
  }

  lemma OutputsOfCons(p: GroupPlan, rest: seq<GroupPlan>)
    ensures OutputsOf([p] + rest) == [p.taskOutput] + OutputsOf(rest)
  {
    assert ([p] + rest)[1..] == rest;
  }

  /** Every job appends to the accumulation file of its group. */
  lemma {:induction false} JobsUseGroupOutputs(req: Request, gs: seq<GroupEntry>, j: Job)
    requires j in AllJobs(PlanGroups(req, gs))
    ensures j.taskOutput in OutputsOf(PlanGroups(req, gs))
  {
    PlanGroupsCons(req, gs);
    var rest := PlanGroups(req, gs[1..]);
    match PlanGroup(req, gs[0])
    case None =>
      JobsUseGroupOutputs(req, gs[1..], j);
    case Some(p) =>
      OutputsOfCons(p, rest);
      if j in AllJobs(rest) {
        JobsUseGroupOutputs(req, gs[1..], j);
      }
  }

  /**
   * With tidy, the accumulation file of every job is removed before any job
   * runs; without tidy none is.
   */
  lemma EvalTidy(req: Request, listing: seq<GroupEntry>)
    requires ValidRequest(req)
    ensures var plan := EvalGeneric(req, listing).value;
            (req.tidy ==> forall j :: j in plan.jobs ==> j.taskOutput in plan.cleared) &&
            (!req.tidy ==> plan.cleared == [])
  {
    forall j | j in EvalGeneric(req, listing).value.jobs
      ensures j.taskOutput in OutputsOf(PlanGroups(req, listing))
    {
      JobsUseGroupOutputs(req, listing, j);
    }
  }

  /** Every job's accumulation file carries the measure's name as its extension. */
  lemma JobOutputExtension(req: Request, listing: seq<GroupEntry>, j: Job)
    requires ValidRequest(req) && j in EvalGeneric(req, listing).value.jobs
    ensures EndsWith(j.taskOutput, "." + req.evalname)
  {
    JobsSound(req, listing, j);
    var i, f :| 0 <= i < |listing| && Produces(req, listing[i], f, j);
  }

  // ---- dispatch ----

  /** `evalAlgorithm`: the path-id assertion, the measure dispatch, then `evalGeneric`. */
  function EvalAlgorithm(algname: string, basefile: string, measure: string, pathid: string,
                         listing: seq<GroupEntry>): (r: Result<Plan>)
    ensures pathid != [] && pathid[0] != SepPathId ==> r.Failure?
    ensures (pathid == [] || pathid[0] == SepPathId) && ParseMeasure(measure).Failure? ==>
              r == Failure("Unexpected measure: " + measure)
    ensures r.Success? ==> ParseMeasure(measure).Success?
  {
    if pathid != [] && pathid[0] != SepPathId then Failure("pathid must include pathid separator")
    else
      match ParseMeasure(measure)
      case Failure(e) => Failure(e)
      case Success(m) => EvalGeneric(MeasureRequest(m, algname, basefile, pathid), listing)
  }

  /** The `evalGeneric` request of a measure: its name, directory and tidy flag. */
  function MeasureRequest(m: Measure, algname: string, basefile: string, pathid: string): Request
  {
    Request(m.Name(), algname, basefile, m.Dir(), pathid, m.Tidy())
  }

  /**
   * A dispatched evaluation writes `.<measure>` accumulation files; `mod` and
   * `nmi` remove every one of them first, `nmi_s` none.
   */
  lemma EvalAlgorithmPlan(algname: string, basefile: string, measure: string, pathid: string,
                          listing: seq<GroupEntry>)
    requires EvalAlgorithm(algname, basefile, measure, pathid, listing).Success?
    ensures var plan := EvalAlgorithm(algname, basefile, measure, pathid, listing).value;
            (forall j :: j in plan.jobs ==> EndsWith(j.taskOutput, "." + measure)) &&
            (measure != "nmi_s" ==> forall j :: j in plan.jobs ==> j.taskOutput in plan.cleared) &&
            (measure == "nmi_s" ==> plan.cleared == [])
  {
    var m := ParseMeasure(measure).value;
    var req := MeasureRequest(m, algname, basefile, pathid);
    EvalTidy(req, listing);
    forall j | j in EvalGeneric(req, listing).value.jobs
      ensures EndsWith(j.taskOutput, "." + measure)
    {
      JobOutputExtension(req, listing, j);
    }
  }
}

=== FILE: measures.dfy ===
/**
 * The three evaluation measures `evalAlgorithm` dispatches on, each with the
 * directory its logs and accumulation files go to, whether previous results
 * are removed first (tidy), and the header line of its accumulation files.
 */
module Measures {
  import opened Wrappers
  import opened Naming

  datatype Measure = Mod | Nmi | NmiS
  {
    /** The measure's name, which is also the extension of its accumulation files. */
    function Name(): string
    {
      match this
      case Mod => "mod"
      case Nmi => "nmi"
      case NmiS => "nmi_s"
    }

    /** The directory replacing `clusters/` in the measure's log paths. */
    function Dir(): string
    {
      match this
      case Mod => ModDir
      case Nmi => NmiDir
      case NmiS => NmiDir
    }

    /** Whether previous results are removed before the evaluation; `nmi_s` shares `nmi/` and keeps them. */
    predicate Tidy()
    {
      this != NmiS
    }

    /** The first line written to an empty accumulation file. */
    function Header(): string
    {
      match this
      case Mod => "# Q\t[ShuffleIndex_]Level"
      case Nmi => "# NMI\t[shuffle_]level"
      case NmiS => "# NMI_S\t[shuffle_]level"
    }
  }

  /** The measure named `name`; any other name is the `ValueError` of the dispatch. */
  function ParseMeasure(name: string): (r: Result<Measure>)
    ensures r.Success? <==> name in {"mod", "nmi", "nmi_s"}
    ensures r.Success? ==> r.value.Name() == name
    ensures r.Failure? ==> r.error == "Unexpected measure: " + name
  {
    if name == "mod" then Success(Mod)
    else if name == "nmi" then Success(Nmi)
    else if name == "nmi_s" then Success(NmiS)
    else Failure("Unexpected measure: " + name)
  }

  /** Every measure is dispatched by its own name, so names identify measures. */
  lemma ParseName(m: Measure)
    ensures ParseMeasure(m.Name()) == Success(m)
  {
  }

  /** Different measures have different names. */
  lemma NamesDistinct(m1: Measure, m2: Measure)
    requires m1 != m2
    ensures m1.Name() != m2.Name()
  {
    ParseName(m1);
    ParseName(m2);
  }

  /**
   * The dispatch table: `mod` to `mod/` with tidy, `nmi` to `nmi/` with tidy,
   * `nmi_s` to `nmi/` without tidy.
   */
  lemma DispatchTable(name: string)
    requires ParseMeasure(name).Success?
    ensures var m := ParseMeasure(name).value;
            (name == "mod" ==> m.Dir() == "mod/" && m.Tidy()) &&
            (name == "nmi" ==> m.Dir() == "nmi/" && m.Tidy()) &&
            (name == "nmi_s" ==> m.Dir() == "nmi/" && !m.Tidy())
  {
  }

  /** Only the measure sharing its directory with another keeps previous results. */
  lemma UntidyShares(m: Measure)
    ensures !m.Tidy() <==> exists o: Measure :: o != m && o.Dir() == m.Dir() && o.Tidy()
  {
    if !m.Tidy() {
      assert Nmi != m && Nmi.Dir() == m.Dir() && Nmi.Tidy();
    }
  }
}

=== FILE: naming.dfy ===
/**
 * The naming convention of network artifacts and of the evaluation outputs
 * derived from them.
 *
 * A cluster-group directory is named
 *   <base>[^instance][!params][.shuffle][#[f]pathid]
 * and the evaluator decides from that name alone whether the group belongs to
 * the base network and path id being evaluated, and which shuffle it holds.
 */
module Naming {
  import opened Wrappers
  import opened PyStr
  import opened PyPath

  const SepInst: char := '^'
  const SepPars: char := '!'
  const SepPathId: char := '#'
  const PathIdFile: char := 'f'
  const SepShuffle: char := '.'

  const ResDir: string := "results/"
  const ClsDir: string := "clusters/"
  const ModDir: string := "mod/"
  const NmiDir: string := "nmi/"
  const ExtExecTime: string := ".rcp"

  // ---- path ids ----

  /** Reference form: some '#' at `k` is followed, up to the end, by `<int>` or `f<int>`. */
  predicate PathIdAt(c: string, k: int)
  {
    0 <= k < |c| && c[k] == SepPathId &&
    (IsInt(c[k + 1..]) || (k + 1 < |c| && c[k + 1] == PathIdFile && IsInt(c[k + 2..])))
  }

  /**
   * The name ends in a well-formed path id: its last '#' is followed by an
   * integer literal, possibly after the file marker 'f'. That is, some '#' is
   * followed up to the end by `<int>` or `f<int>`.
   */
  predicate HasPathId(clsname: string)
    ensures HasPathId(clsname) <==> exists k :: PathIdAt(clsname, k)
  {
    var i := RFind(clsname, SepPathId);
    var found := i != -1 && i + 1 < |clsname| &&
                 var j := if clsname[i + 1] == PathIdFile then i + 1 else i;
                 IsInt(clsname[j + 1..]);
    assert found ==> PathIdAt(clsname, i);
    assert forall k :: PathIdAt(clsname, k) ==> found by {
      forall k | PathIdAt(clsname, k) ensures found { PathIdAtChecked(clsname, k); }
    }
    found
  }

  /** A separator at `k` that is followed, after non-separators, by an integer literal is the last one. */
  lemma LastBeforeInt(c: string, ch: char, k: int, m: int)
    requires 0 <= k < m <= |c| && c[k] == ch && !IntChar(ch) && IsInt(c[m..])
    requires forall j :: k < j < m ==> c[j] != ch
    ensures RFind(c, ch) == k
  {
    IntLiteralChars(c[m..]);
    forall j | m <= j < |c| ensures c[j] != ch {
      assert c[m..][j - m] == c[j];
    }
  }

  /** A '#' that starts a path id is the last '#', and the text after it (and after an 'f') is an integer. */
  lemma PathIdAtChecked(c: string, k: int)
    requires PathIdAt(c, k)
    ensures RFind(c, SepPathId) == k && k + 1 < |c|
    ensures IsInt(c[(if c[k + 1] == PathIdFile then k + 1 else k) + 1..])
  {
    PathIdAtLast(c, k);
    if c[k + 1] == PathIdFile {
      assert c[k + 1..][0] == PathIdFile;
    }
  }

  /** A '#' that starts a path id is the last '#'. */
  lemma PathIdAtLast(c: string, k: int)
    requires PathIdAt(c, k)
    ensures RFind(c, SepPathId) == k
  {
    if IsInt(c[k + 1..]) {
      LastBeforeInt(c, SepPathId, k, k + 1);
    } else {
      LastBeforeInt(c, SepPathId, k, k + 2);
    }
  }

  /** The path ids the program produces: '#' then an integer, optionally after 'f'. */
  predicate ValidPathId(p: string)
  {
    |p| >= 2 && p[0] == SepPathId && (IsInt(p[1..]) || (p[1] == PathIdFile && IsInt(p[2..])))
  }

  /** A valid path id holds its separator only at the front, and no '.', '/', '^' or '!'. */
  lemma ValidPathIdChars(p: string)
    requires ValidPathId(p)
    ensures forall i :: 1 <= i < |p| ==>
              p[i] != SepPathId && p[i] != '.' && p[i] != '/' && p[i] != SepInst && p[i] != SepPars
  {
    if IsInt(p[1..]) {
      IntLiteralChars(p[1..]);
      forall i | 1 <= i < |p| ensures IntChar(p[i]) { assert p[1..][i - 1] == p[i]; }
    } else {
      IntLiteralChars(p[2..]);
      forall i | 2 <= i < |p| ensures IntChar(p[i]) { assert p[2..][i - 2] == p[i]; }
    }
  }

  /** An absent or valid path id holds none of the path, shuffle or suffix separators. */
  lemma PathIdFree(p: string)
    requires p == [] || ValidPathId(p)
    ensures '/' !in p && '.' !in p && SepInst !in p && SepPars !in p
  {
    if p != [] {
      ValidPathIdChars(p);
      forall ch | ch in p ensures ch != '/' && ch != '.' && ch != SepInst && ch != SepPars {
        var i :| 0 <= i < |p| && p[i] == ch;
        assert i == 0 || 1 <= i;
      }
    }
  }

  // ---- shuffles ----

  /** Reference form: the name body has a '.' at `k` followed, up to the end, by an integer. */
  predicate ShuffleAt(body: string, k: int)
  {
    0 <= k < |body| && body[k] == SepShuffle && IsInt(body[k + 1..])
  }

  /** The shuffle index in a group name without its path id: the integer after its last '.', if any. */
  function BodyShuffle(body: string): (s: string)
    ensures s == [] || IsInt(s)
  {
    var ish := RFind(body, SepShuffle) + 1;
    var shuffle := if ish != 0 then body[ish..] else [];
    if |shuffle| > 0 && !IsInt(shuffle) then [] else shuffle
  }

  /**
   * The shuffle index of a group: the text between the last '.' of the name
   * (path id removed) and the path id, kept only when it is an integer.
   */
  function ShuffleOf(clsname: string, pathid: string): (s: string)
    requires |pathid| <= |clsname|
    ensures s == [] || IsInt(s)
  {
    BodyShuffle(clsname[..|clsname| - |pathid|])
  }

  /** A found shuffle sits after the last '.' and ends the body. */
  lemma BodyShuffleFound(body: string)
    requires BodyShuffle(body) != []
    ensures ShuffleAt(body, RFind(body, SepShuffle))
    ensures EndsWith(body, "." + BodyShuffle(body))
  {
    var d := RFind(body, SepShuffle);
    var s := BodyShuffle(body);
    assert body[d + 1..] == s;
    assert body[|body| - |"." + s|..] == "." + s;
  }

  /** A '.' followed by an integer up to the end is the last '.', and the shuffle is that integer. */
  lemma BodyShuffleAt(body: string, k: int)
    requires ShuffleAt(body, k)
    ensures BodyShuffle(body) == body[k + 1..] != []
  {
    IntLiteralFree(body[k + 1..]);
    RFindAt(body, SepShuffle, k);
  }

  /** The shuffle is present exactly when the body ends in `.<int>`, and is that integer. */
  lemma ShuffleOfSpec(clsname: string, pathid: string)
    requires |pathid| <= |clsname|
    ensures var body := clsname[..|clsname| - |pathid|];
            var s := ShuffleOf(clsname, pathid);
            (s == [] <==> forall k :: !ShuffleAt(body, k)) &&
            (s != [] ==> EndsWith(body, "." + s))
  {
    var body := clsname[..|clsname| - |pathid|];
    if BodyShuffle(body) != [] {
      BodyShuffleFound(body);
    }
    forall k | ShuffleAt(body, k) ensures BodyShuffle(body) != [] {
      BodyShuffleAt(body, k);
    }
  }

  // ---- classification of a cluster group ----

  /**
   * `evalGeneric`'s filter for one cluster group `clsname` of base caption
   * `taskcapt` under the requested `pathid`: None when the group is skipped,
   * otherwise its (possibly empty) shuffle index.
   */
  function Classify(taskcapt: string, pathid: string, clsname: string): (r: Option<string>)
    ensures r.Some? && pathid != [] ==> EndsWith(clsname, pathid)
    ensures r.Some? ==> !(|clsname| > |taskcapt| && clsname[|taskcapt|] == SepInst)
    ensures r.Some? && r.value != [] ==>
              IsInt(r.value) && EndsWith(clsname[..|clsname| - |pathid|], "." + r.value)
  {
    if pathid != [] && !EndsWith(clsname, pathid) then None
    else if pathid == [] && HasPathId(clsname) then None
    else if |clsname| > |taskcapt| && clsname[|taskcapt|] == SepInst then None
    else
      ShuffleOfSpec(clsname, pathid);
      Some(ShuffleOf(clsname, pathid))
  }

  /**
   * A group is accepted iff its path id matches the request (ends with the
   * requested id; or, with none requested, has no well-formed '#'-suffix) and
   * the character right after the caption is not the instance separator.
   */
  lemma ClassifyAccepts(taskcapt: string, pathid: string, clsname: string)
    ensures Classify(taskcapt, pathid, clsname).Some? <==>
              (if pathid != [] then EndsWith(clsname, pathid)
               else forall k :: !PathIdAt(clsname, k)) &&
              !(|clsname| > |taskcapt| && clsname[|taskcapt|] == SepInst)
  {
  }

  /** A bare '#' or '#f' at the end is no path id: such a group is kept when none is requested. */
  lemma DanglingPathIdKept(a: string, marker: string)
    requires marker == "#" || marker == "#f"
    ensures !HasPathId(a + marker)
  {
    var c := a + marker;
    assert c[|a|] == SepPathId;
    assert SepPathId !in c[|a| + 1..] by {
      assert c[|a| + 1..] == marker[1..];
    }
    RFindAt(c, SepPathId, |a|);
    assert marker == "#f" ==> c[|a| + 2..] == [];
  }

  /** Between two path ids the program produces, one is a suffix of a name ending in the other only if they are equal. */
  lemma PathIdSelects(x: string, p: string, q: string)
    requires ValidPathId(p) && ValidPathId(q)
    ensures EndsWith(x + p, q) <==> q == p
  {
    ValidPathIdChars(p);
    ValidPathIdChars(q);
    var c := x + p;
    forall j | |x| < j < |c| ensures c[j] != SepPathId { assert c[j] == p[j - |x|]; }
    assert c[|x|] == SepPathId;
    assert RFind(c, SepPathId) == |x|;
    if EndsWith(c, q) {
      var o := |c| - |q|;
      forall j | o < j < |c| ensures c[j] != SepPathId { assert c[j] == c[o..][j - o] == q[j - o]; }
      assert c[o] == c[o..][0] == q[0];
      assert RFind(c, SepPathId) == o;
      assert q == c[|x|..] == p;
    }
  }

  /** A group named `X + p` for a program path id `p` is kept only under `p` itself, and never when no path id is requested. */
  lemma PathIdGroupSelection(taskcapt: string, x: string, p: string, q: string)
    requires ValidPathId(p) && (q == [] || ValidPathId(q))
    ensures Classify(taskcapt, q, x + p).Some? ==> q == p
    ensures |x| == |taskcapt| ==> Classify(taskcapt, p, x + p).Some?
  {
    var c := x + p;
    if q == [] {
      assert PathIdAt(c, |x|) by {
        assert c[|x|] == p[0];
        assert c[|x| + 1..] == p[1..];
        if !IsInt(p[1..]) {
          assert c[|x| + 2..] == p[2..];
          assert c[|x| + 1] == p[1];
        }
      }
    } else {
      PathIdSelects(x, p, q);
    }
    PathIdSelects(x, p, p);
    if |x| == |taskcapt| {
      assert c[|taskcapt|] == p[0];
    }
  }

  /** A group whose name only continues the caption (`net2` for `net`) is not filtered as an instance. */
  lemma ContinuationNotAnInstance()
    ensures Classify("net", "", "net2") == Some("")
  {
    var c := "net2";
    assert forall k :: 0 <= k < |c| ==> c[k] != SepPathId;
    ClassifyAccepts("net", "", c);
    assert RFind(c, SepShuffle) == -1;
  }

  /** A name `X.n` (n an integer) has no path id: any '#' lies in `X`, before the '.'. */
  lemma ShuffledNameHasNoPathId(x: string, n: string)
    requires IsInt(n)
    ensures !HasPathId(x + "." + n)
  {
    var c := x + "." + n;
    IntLiteralChars(n);
    forall j | |x| < j < |c| ensures c[j] != SepPathId { assert c[j] == n[j - |x| - 1]; }
    assert c[|x|] == '.';
    var i := RFind(c, SepPathId);
    if i != -1 && i + 1 < |c| {
      var j := if c[i + 1] == PathIdFile then i + 1 else i;
      assert j < |x|;
      assert c[j + 1..][|x| - j - 1] == '.';
      NotIntWith(c[j + 1..], |x| - j - 1);
    }
  }

  /** A shuffled group `X.n + pathid` of a dot-free caption `X` is kept and yields shuffle `n`. */
  lemma ShuffledGroupClassified(x: string, n: string, pathid: string)
    requires SepShuffle !in x && IsInt(n)
    ensures Classify(x, pathid, x + "." + n + pathid) == Some(n)
  {
    var c := x + "." + n + pathid;
    IntLiteralChars(n);
    if pathid == [] {
      assert c == x + "." + n;
      ShuffledNameHasNoPathId(x, n);
    }
    assert c[|x|] == '.';
    var body := x + "." + n;
    assert c[..|c| - |pathid|] == body;
    forall j | |x| < j < |body| ensures body[j] != SepShuffle { assert body[j] == n[j - |x| - 1]; }
    assert RFind(body, SepShuffle) == |x|;
    assert body[|x| + 1..] == n;
  }

  /** The unshuffled group `X + pathid` of a dot-free caption `X` carries no shuffle. */
  lemma PlainGroupUnshuffled(x: string, pathid: string)
    requires SepShuffle !in x
    ensures Classify(x, pathid, x + pathid).Some? ==> Classify(x, pathid, x + pathid) == Some([])
  {
    var c := x + pathid;
    assert c[..|c| - |pathid|] == x;
    assert RFind(x, SepShuffle) == -1;
  }

  // ---- derived names ----

  /** The caption of a base file: its name without directory and extension. */
  function TaskCaption(basefile: string): string
  {
    SplitExt(Basename(basefile)).0
  }

  /** The caption of `dir/b.ext` for a dot-free name `b` is `b`. */
  lemma TaskCaptionOf(d: string, b: string, e: string)
    requires |d| > 0 && d[|d| - 1] != '/'
    requires |b| > 0 && '.' !in b && '/' !in b && '.' !in e && '/' !in e
    ensures TaskCaption(d + "/" + b + "." + e) == b
  {
    AppendAssoc(d + "/", b + ".", e);
    AppendAssoc(d + "/", b, ".");
    SplitJoined(d, b + "." + e);
    assert b[0] != '.';
    SplitExtAt([], b, e);
    assert [] + b == b;
  }

  /**
   * The per-algorithm resource-consumption profile of a measure: in the
   * algorithm's results directory, named by the measure, with extension `.rcp`.
   */
  function ProfilePath(algname: string, evalname: string): (r: string)
    ensures StartsWith(r, ResDir + algname + "/") && EndsWith(r, ExtExecTime)
    ensures |r| == |ResDir + algname + "/"| + |evalname| + |ExtExecTime|
    ensures r[|ResDir + algname + "/"|..|r| - |ExtExecTime|] == evalname
  {
    ResDir + algname + "/" + evalname + ExtExecTime
  }

  /** Different measures of one algorithm keep different profiles. */
  lemma ProfilePathsDistinct(algname: string, e1: string, e2: string)
    requires e1 != e2
    ensures ProfilePath(algname, e1) != ProfilePath(algname, e2)
  {
  }

  /** `'_'.join((evalname, taskcapt, pathid, algname))` */
  function TaskName(evalname: string, taskcapt: string, pathid: string, algname: string): (r: string)
    ensures pathid == [] ==> r == evalname + "_" + taskcapt + "__" + algname
  {
    evalname + "_" + taskcapt + "_" + pathid + "_" + algname
  }

  /** Tasks of different path ids (with everything else equal) are named differently. */
  lemma TaskNameSeparatesPathIds(evalname: string, taskcapt: string, p: string, q: string, algname: string)
    requires p != q
    ensures TaskName(evalname, taskcapt, p, algname) != TaskName(evalname, taskcapt, q, algname)
  {
    var pre := evalname + "_" + taskcapt + "_";
    var a := TaskName(evalname, taskcapt, p, algname);
    var b := TaskName(evalname, taskcapt, q, algname);
    if |p| == |q| {
      assert a[|pre|..|pre| + |p|] == p;
      assert b[|pre|..|pre| + |q|] == q;
    }
  }

  /** The directory the algorithm wrote a cluster group into. */
  function ClustersBase(algname: string, clsname: string): string
  {
    ResDir + algname + "/" + ClsDir + clsname
  }

  /**
   * The measure's mirror of a cluster-group path: every `clusters/` replaced by
   * `measdir`; a path without `clusters/` is its own mirror.
   */
  function LogsDir(clsbase: string, measdir: string): (r: string)
    ensures (forall k :: !OccursAt(clsbase, ClsDir, k)) ==> r == clsbase
    ensures measdir == ClsDir ==> r == clsbase
  {
    assert (forall k :: !OccursAt(clsbase, ClsDir, k)) ==> Replace(clsbase, ClsDir, measdir) == clsbase by {
      if forall k :: !OccursAt(clsbase, ClsDir, k) { ReplaceNoMatch(clsbase, ClsDir, measdir); }
    }
    Replace(clsbase, ClsDir, measdir)
  }

  /** Only the directory part of a group path is rewritten: the group name is kept. */
  lemma LogsDirKeepsGroupName(algname: string, measdir: string, clsname: string)
    requires '/' !in clsname
    ensures LogsDir(ClustersBase(algname, clsname), measdir)
            == LogsDir(ResDir + algname + "/" + ClsDir, measdir) + clsname
  {
    assert ClustersBase(algname, clsname) == (ResDir + algname + "/" + ClsDir) + clsname;
    ReplaceAppend(ResDir + algname + "/" + ClsDir, clsname, ClsDir, measdir);
  }

  /**
   * The log directory of a group is `results/<alg>/<measdir><group>`: the one
   * `clusters/` of its path is replaced by the measure directory. An algorithm
   * name ending in `clusters` would add a second, earlier match.
   */
  lemma LogsDirOfGroup(algname: string, measdir: string, clsname: string)
    requires '/' !in algname && !EndsWith(algname, "clusters")
    requires '/' !in clsname
    ensures LogsDir(ClustersBase(algname, clsname), measdir) == ResDir + algname + "/" + measdir + clsname
  {
    LogsDirKeepsGroupName(algname, measdir, clsname);
    MeasureDirOf(algname, measdir);
  }

  /** The algorithm's `clusters/` directory is mirrored by `results/<alg>/<measdir>`. */
  lemma MeasureDirOf(algname: string, measdir: string)
    requires '/' !in algname && !EndsWith(algname, "clusters")
    ensures LogsDir(ResDir + algname + "/" + ClsDir, measdir) == ResDir + algname + "/" + measdir
  {
    ClsDirOnlyAtEnd(algname);
    ReplaceAtEnd(ResDir + algname + "/", ClsDir, measdir);
  }

  /** In `results/<alg>/clusters/`, `clusters/` occurs only at the end. */
  lemma ClsDirOnlyAtEnd(algname: string)
    requires '/' !in algname && !EndsWith(algname, "clusters")
    ensures var p := ResDir + algname + "/";
            forall k :: 0 <= k < |p| ==> !OccursAt(p + ClsDir, ClsDir, k)
  {
    var p := ResDir + algname + "/";
    forall k | 0 <= k < |p| ensures !OccursAt(p + ClsDir, ClsDir, k) {
      if OccursAt(p + ClsDir, ClsDir, k) {
        ClsDirMatch(algname, k);
      }
    }
  }

  /** An earlier match of `clusters/` in `results/<alg>/clusters/` ends at the '/' after an algorithm name ending in `clusters`. */
  lemma ClsDirMatch(algname: string, k: int)
    requires '/' !in algname
    requires 0 <= k < |ResDir + algname + "/"| && OccursAt(ResDir + algname + "/" + ClsDir, ClsDir, k)
    ensures k == |algname| && EndsWith(algname, "clusters")
  {
    var p := ResDir + algname + "/";
    var full := p + ClsDir;
    var m := full[k..k + 9];
    assert m == ClsDir;
    assert m[8] == full[k + 8] == '/';
    assert k + 8 < |p|;
    assert p[k + 8] == '/';
    forall j | 8 <= j < 8 + |algname| ensures p[j] != '/' {
      assert p[j] == algname[j - 8];
      assert algname[j - 8] in algname;
    }
    assert k == |algname|;
    forall j | k <= j < k + 8 ensures full[j] != '/' {
      assert full[j] == m[j - k] == ClsDir[j - k];
    }
    assert full[7] == '/';
    assert |algname| >= 8;
    var tail := algname[|algname| - 8..];
    forall i | 0 <= i < 8 ensures tail[i] == "clusters"[i] {
      assert m[i] == full[k + i] == p[k + i] == tail[i];
    }
  }

  /**
   * The accumulation file of a group: a shuffled group drops the shuffle (and
   * re-appends the path id) so that all shuffles share one file.
   */
  function TaskOutput(logsbase: string, shuffle: string, pathid: string, evalname: string): (r: string)
    ensures EndsWith(r, "." + evalname)
  {
    var t := if shuffle != [] then SplitExt(logsbase).0 else logsbase;
    var t' := if shuffle != [] && pathid != [] then t + pathid else t;
    t' + "." + evalname
  }

  /** A group name made of a dot-free caption, a shuffle and a path id has no '/'. */
  lemma ShuffledNameNoSlash(x: string, n: string, pathid: string)
    requires '/' !in x && IsInt(n) && '/' !in pathid
    ensures '/' !in x + "." + n + pathid
  {
    IntLiteralFree(n);
  }

  /** In any logs directory, the shuffled group `X.n + pathid` accumulates into `X + pathid`'s file. */
  lemma ShuffledOutput(dir: string, x: string, n: string, pathid: string, evalname: string)
    requires |x| > 0 && SepShuffle !in x && '/' !in x
    requires IsInt(n) && SepShuffle !in pathid && '/' !in pathid
    ensures TaskOutput(dir + (x + "." + n + pathid), n, pathid, evalname) == dir + (x + pathid) + "." + evalname
  {
    IntLiteralFree(n);
    AppendAssoc(x + ".", n, pathid);
    AppendAssoc(dir, x + ".", n + pathid);
    AppendAssoc(dir, x, ".");
    assert x[0] != '.';
    SplitExtAt(dir, x, n + pathid);
    AppendAssoc(dir, x, pathid);
  }

  /**
   * The accumulation file of the unshuffled group `X + pathid` and of each
   * integer-shuffled group `X.n + pathid` of a dot-free caption `X` is the one
   * file `<logs dir>/X + pathid + '.' + evalname`.
   */
  lemma SharedAccumulation(algname: string, measdir: string, evalname: string,
                           x: string, n: string, pathid: string)
    requires |x| > 0 && SepShuffle !in x && '/' !in x
    requires IsInt(n) && SepShuffle !in pathid && '/' !in pathid
    ensures var dir := LogsDir(ResDir + algname + "/" + ClsDir, measdir);
            TaskOutput(LogsDir(ClustersBase(algname, x + pathid), measdir), [], pathid, evalname)
              == dir + (x + pathid) + "." + evalname &&
            TaskOutput(LogsDir(ClustersBase(algname, x + "." + n + pathid), measdir), n, pathid, evalname)
              == dir + (x + pathid) + "." + evalname
  {
    var dir := LogsDir(ResDir + algname + "/" + ClsDir, measdir);
    LogsDirKeepsGroupName(algname, measdir, x + pathid);
    ShuffledNameNoSlash(x, n, pathid);
    LogsDirKeepsGroupName(algname, measdir, x + "." + n + pathid);
    ShuffledOutput(dir, x, n, pathid, evalname);
  }

  /**
   * The file shared by the group `X + pathid` and its shuffles `X.n + pathid`
   * is `results/<alg>/<measdir>X<pathid>.<measure>`.
   */
  lemma AccumulationFileOf(algname: string, measdir: string, evalname: string,
                           x: string, n: string, pathid: string)
    requires '/' !in algname && !EndsWith(algname, "clusters")
    requires |x| > 0 && SepShuffle !in x && '/' !in x
    requires IsInt(n) && SepShuffle !in pathid && '/' !in pathid
    ensures TaskOutput(LogsDir(ClustersBase(algname, x + "." + n + pathid), measdir), n, pathid, evalname)
            == ResDir + algname + "/" + measdir + (x + pathid) + "." + evalname
    ensures TaskOutput(LogsDir(ClustersBase(algname, x + pathid), measdir), [], pathid, evalname)
            == ResDir + algname + "/" + measdir + (x + pathid) + "." + evalname
  {
    SharedAccumulation(algname, measdir, evalname, x, n, pathid);
    MeasureDirOf(algname, measdir);
  }

  /**
   * Shuffles share their group's file: for a dot-free caption `X`, the group
   * `X.n + pathid` is kept with shuffle `n`, the group `X + pathid` (when kept)
   * has no shuffle, and both accumulate into the same file.
   */
  lemma ShufflesShareAccumulation(algname: string, measdir: string, evalname: string,
                                  x: string, n: string, pathid: string)
    requires |x| > 0 && SepShuffle !in x && '/' !in x
    requires IsInt(n) && SepShuffle !in pathid && '/' !in pathid
    ensures Classify(x, pathid, x + "." + n + pathid) == Some(n)
    ensures Classify(x, pathid, x + pathid).Some? ==> Classify(x, pathid, x + pathid) == Some([])
    ensures TaskOutput(LogsDir(ClustersBase(algname, x + pathid), measdir), [], pathid, evalname)
            == TaskOutput(LogsDir(ClustersBase(algname, x + "." + n + pathid), measdir), n, pathid, evalname)
  {
    ShuffledGroupClassified(x, n, pathid);
    PlainGroupUnshuffled(x, pathid);
    SharedAccumulation(algname, measdir, evalname, x, n, pathid);
  }

  /**
   * `'_'.join((evalname, clsname, algname))`: the measure, the group and the
   * algorithm, each at a position fixed by the lengths of the ones before it.
   */
  function JobName(evalname: string, clsname: string, algname: string): (r: string)
    ensures |r| == |evalname| + |clsname| + |algname| + 2
    ensures r[..|evalname|] == evalname && r[|evalname|] == '_'
    ensures r[|evalname| + 1..|evalname| + 1 + |clsname|] == clsname
    ensures r[|r| - |algname| - 1] == '_' && r[|r| - |algname|..] == algname
  {
    evalname + "_" + clsname + "_" + algname
  }

  /** Jobs of different groups (same measure and algorithm) are named differently. */
  lemma JobNameSeparatesGroups(evalname: string, c1: string, c2: string, algname: string)
    requires c1 != c2
    ensures JobName(evalname, c1, algname) != JobName(evalname, c2, algname)
  {
    var pre := evalname + "_";
    var a := JobName(evalname, c1, algname);
    var b := JobName(evalname, c2, algname);
    if |c1| == |c2| {
      assert a[|pre|..|pre| + |c1|] == c1;
      assert b[|pre|..|pre| + |c2|] == c2;
    }
  }

  // ---- job captions ----

  /**
   * The clusters file's base name anchored on the group name: at the first
   * occurrence of `clsname` when it occurs, or at 0 after putting
   * `clsname + '_'` in front when it does not.
   */
  function Anchored(clsname: string, jbase: string): (r: (nat, string))
    ensures OccursAt(r.1, clsname, r.0)
    ensures (exists k :: OccursAt(jbase, clsname, k)) ==> r.1 == jbase && FirstAt(jbase, clsname, r.0)
    ensures (forall k :: !OccursAt(jbase, clsname, k)) ==> r == (0, clsname + "_" + jbase)
  {
    var j := Find(jbase, clsname);
    if j == -1 then
      assert (clsname + "_" + jbase)[..|clsname|] == clsname;
      (0, clsname + "_" + jbase)
    else (j, jbase)
  }

  /** What a shuffle index puts in front of a job caption: `shuffle_`, or nothing. */
  function ShufflePrefix(shuffle: string): string
  {
    if shuffle != [] then shuffle + "_" else []
  }

  /**
   * The caption of a job, behind the shuffle prefix: the text after the first
   * occurrence of the group name and one separator character, or the whole
   * file base name when the group name does not occur in it.
   */
  function JobCaption(clsname: string, jbase: string, shuffle: string): (r: string)
    ensures forall k :: FirstAt(jbase, clsname, k) ==>
              r == ShufflePrefix(shuffle) + SliceFrom(jbase, k + |clsname| + 1)
    ensures (forall k :: !OccursAt(jbase, clsname, k)) ==> r == ShufflePrefix(shuffle) + jbase
  {
    var a := Anchored(clsname, jbase);
    var capt := SliceFrom(a.1, a.0 + |clsname| + 1);
    AnchoredCaption(clsname, jbase);
    if shuffle != [] then shuffle + "_" + capt else capt
  }

  /** The text after the anchor is the text after the first occurrence, or the whole base name when there is none. */
  lemma AnchoredCaption(clsname: string, jbase: string)
    ensures var a := Anchored(clsname, jbase);
            var capt := SliceFrom(a.1, a.0 + |clsname| + 1);
            (forall k :: FirstAt(jbase, clsname, k) ==> capt == SliceFrom(jbase, k + |clsname| + 1)) &&
            ((forall k :: !OccursAt(jbase, clsname, k)) ==> capt == jbase)
  {
    var a := Anchored(clsname, jbase);
    forall k | FirstAt(jbase, clsname, k) ensures a == (k, jbase) {
      assert OccursAt(jbase, clsname, k);
      FirstAtUnique(jbase, clsname, k, a.0);
    }
    if forall k :: !OccursAt(jbase, clsname, k) {
      assert (clsname + "_" + jbase)[|clsname| + 1..] == jbase;
    }
  }

  /** A file name whose first occurrence of the group name is at `|pre|`, followed by one separator, has the rest as caption. */
  lemma CaptionAfterFirstOccurrence(clsname: string, pre: string, c: char, rest: string)
    requires forall k :: 0 <= k < |pre| ==> !OccursAt(pre + clsname + [c] + rest, clsname, k)
    ensures JobCaption(clsname, pre + clsname + [c] + rest, []) == rest
  {
    var jbase := pre + clsname + [c] + rest;
    assert jbase[|pre|..|pre| + |clsname|] == clsname;
    assert FirstAt(jbase, clsname, |pre|);
    assert jbase[|pre| + |clsname| + 1..] == rest;
  }

  /** A file name not mentioning the group name is the caption itself. */
  lemma CaptionWithoutGroupName(clsname: string, jbase: string)
    requires forall k :: !OccursAt(jbase, clsname, k)
    ensures JobCaption(clsname, jbase, []) == jbase
  {
    var j := Find(jbase, clsname);
    assert j == -1;
    assert (clsname + "_" + jbase)[|clsname| + 1..] == jbase;
  }

  /** A file name starting with the group name and one separator has the remainder as caption. */
  lemma CaptionAfterGroupName(clsname: string, c: char, rest: string)
    ensures JobCaption(clsname, clsname + [c] + rest, []) == rest
  {
    var jbase := clsname + [c] + rest;
    assert OccursAt(jbase, clsname, 0) by { assert jbase[..|clsname|] == clsname; }
    assert Find(jbase, clsname) == 0;
    assert jbase[|clsname| + 1..] == rest;
  }

  /** A shuffled group's caption is the unshuffled caption behind `shuffle_`. */
  lemma CaptionOfShuffle(clsname: string, jbase: string, shuffle: string)
    requires shuffle != []
    ensures JobCaption(clsname, jbase, shuffle) == shuffle + "_" + JobCaption(clsname, jbase, [])
  {
  }
}

=== FILE: preparer.dfy ===
/**
 * `preparePath`: before an algorithm writes a task's cluster directory, the
 * previous results of the whole logical group (all instances, parameter
 * variants and shuffles of one network) are moved to a backup. The group is
 * identified by coalescing the task path to its base; this module models that
 * coalescing, and the SCP task names whose variants it must fold together.
 */
module Preparer {
  import opened Wrappers
  import opened PyStr
  import opened PyPath
  import opened Naming

  /** Position `k >= 1` holds a '^' or '!' that does not occur again after it. */
  predicate CutPoint(name: string, k: int)
  {
    1 <= k < |name| && (name[k] == SepInst || name[k] == SepPars) && name[k] !in name[k + 1..]
  }

  /** The cut points are the last '^' and the last '!', when they lie past position 0. */
  lemma CutPoints(name: string, k: int)
    ensures CutPoint(name, k) <==> k >= 1 && (k == RFind(name, SepInst) || k == RFind(name, SepPars))
  {
    if CutPoint(name, k) {
      RFindAt(name, name[k], k);
    }
    if k >= 1 && (k == RFind(name, SepInst) || k == RFind(name, SepPars)) {
      var after := name[k + 1..];
      forall j | 0 <= j < |after| ensures after[j] != name[k] { assert after[j] == name[k + 1 + j]; }
    }
  }

  /**
   * The name cut before its instance or parameter suffix: at the first cut
   * point, that is the smaller of the last '^' and last '!' positions that
   * are at least 1; a name without cut point is kept whole.
   */
  function CutAtSeparator(name: string): (r: string)
    ensures StartsWith(name, r)
    ensures |name| > 0 ==> |r| > 0
    ensures r == name <==> forall k :: !CutPoint(name, k)
    ensures r != name ==> CutPoint(name, |r|) && forall j :: 1 <= j < |r| ==> !CutPoint(name, j)
  {
    var ia := RFind(name, SepInst);
    var ib := RFind(name, SepPars);
    var cut := if ia >= 1 && ib >= 1 then (if ia < ib then ia else ib)
               else if ia >= 1 then ia else ib;
    assert forall k :: CutPoint(name, k) <==> k >= 1 && (k == ia || k == ib) by {
      forall k ensures CutPoint(name, k) <==> k >= 1 && (k == ia || k == ib) { CutPoints(name, k); }
    }
    if cut >= 1 then
      assert CutPoint(name, cut) && |name[..cut]| < |name|;
      name[..cut]
    else name
  }

  /** A name whose only '^' or '!' is `c` right after a non-empty `b` is cut to `b`. */
  lemma CutAtFirst(b: string, c: char, rest: string)
    requires |b| > 0 && SepInst !in b && SepPars !in b
    requires c == SepInst || c == SepPars
    requires SepInst !in rest && SepPars !in rest
    ensures CutAtSeparator(b + [c] + rest) == b
  {
    var name := b + [c] + rest;
    var other := if c == SepInst then SepPars else SepInst;
    assert name[|b| + 1..] == rest;
    RFindAt(name, c, |b|);
    RFindAbsent(name, other);
    assert name[..|b|] == b;
  }

  /** A name with no '^' or '!' past its first character is kept whole. */
  lemma CutNothing(name: string)
    requires |name| > 0 && SepInst !in name[1..] && SepPars !in name[1..]
    ensures CutAtSeparator(name) == name
  {
    forall j | 1 <= j < |name| ensures name[j] != SepInst && name[j] != SepPars {
      assert name[j] == name[1..][j - 1];
    }
  }

  /** A name `b^n!rest`, with an integer instance `n`, is cut to `b`: the instance goes with the parameters. */
  lemma CutInstanceParams(b: string, n: string, rest: string)
    requires |b| > 0 && SepInst !in b && SepPars !in b
    requires IsInt(n) && SepInst !in rest && SepPars !in rest
    ensures CutAtSeparator(b + [SepInst] + n + [SepPars] + rest) == b
  {
    IntLiteralFree(n);
    var name := b + [SepInst] + n + [SepPars] + rest;
    var ia, ib := |b|, |b| + 1 + |n|;
    assert name[ia] == SepInst && name[ib] == SepPars;
    forall j | ia < j < |name| ensures name[j] != SepInst {
      if j < ib { assert name[j] == n[j - ia - 1]; }
      else if j > ib { assert name[j] == rest[j - ib - 1]; }
    }
    forall j | ib < j < |name| ensures name[j] != SepPars {
      assert name[j] == rest[j - ib - 1];
    }
    assert RFind(name, SepInst) == ia;
    assert RFind(name, SepPars) == ib;
    assert name[..ia] == b;
  }

  /** The path with its last component's extension and instance or parameter suffix removed. */
  function MainPath(taskpath: string): string
  {
    var (head, name) := Split(taskpath);
    if name != [] then head + "/" + CutAtSeparator(SplitExt(name).0) else head
  }

  /** A trailing `^<int>` at the end of the whole path. */
  predicate TrailingInstance(p: string)
  {
    var i := RFind(p, SepInst);
    i != -1 && IsInt(p[i + 1..])
  }

  /** The path with a trailing `^<int>` removed. */
  function DropInstance(mainpath: string): (r: string)
    ensures StartsWith(mainpath, r)
  {
    var parts := RSplitLast(mainpath, SepInst);
    if |parts| >= 2 && IsInt(parts[1]) then parts[0] else mainpath
  }

  /** Exactly a trailing `^<int>` is removed, and nothing else. */
  lemma DropInstanceSpec(m: string)
    ensures DropInstance(m) == m <==> !TrailingInstance(m)
    ensures TrailingInstance(m) ==>
              m == DropInstance(m) + [SepInst] + m[|DropInstance(m)| + 1..] &&
              IsInt(m[|DropInstance(m)| + 1..]) && SepInst !in m[|DropInstance(m)| + 1..]
  {
    var parts := RSplitLast(m, SepInst);
    if |parts| == 2 {
      RFindAt(m, SepInst, |parts[0]|) by { assert m[|parts[0]| + 1..] == parts[1]; }
    } else {
      RFindAbsent(m, SepInst);
    }
  }

  /**
   * The path `preparePath(taskpath)` backs up when `taskpath` exists and is
   * not empty: the last component loses its extension and its instance or
   * parameter suffix, then a trailing `^<int>` of the whole path is dropped.
   */
  function Coalesced(taskpath: string): (r: string)
    ensures StartsWith(MainPath(taskpath), r)
    ensures r == MainPath(taskpath) <==> !TrailingInstance(MainPath(taskpath))
  {
    DropInstanceSpec(MainPath(taskpath));
    DropInstance(MainPath(taskpath))
  }

  /** The directory part of `p` is non-empty and does not end in a repeated '/'. */
  predicate PlainDir(p: string)
  {
    var s := RFind(p, '/');
    s >= 1 && p[s - 1] != '/'
  }

  lemma SplitPlainDir(p: string)
    requires PlainDir(p)
    ensures var s := RFind(p, '/'); Split(p) == (p[..s], p[s + 1..])
    ensures var s := RFind(p, '/'); p == p[..s] + "/" + p[s + 1..]
  {
    var s := RFind(p, '/');
    assert p == p[..s] + "/" + p[s + 1..];
    assert p[..s][s - 1] == p[s - 1];
    SplitJoined(p[..s], p[s + 1..]);
  }

  /** The main path of `d/name`: the directory, then the cut stem of the name. */
  lemma MainPathJoined(d: string, name: string)
    requires |d| > 0 && d[|d| - 1] != '/' && '/' !in name && name != []
    ensures MainPath(d + "/" + name) == d + "/" + CutAtSeparator(SplitExt(name).0)
  {
    SplitJoined(d, name);
  }

  /** With a plain directory part, the main path is a prefix of the task path. */
  lemma MainPathIsPrefix(p: string)
    requires PlainDir(p)
    ensures StartsWith(p, MainPath(p))
  {
    var s := RFind(p, '/');
    SplitPlainDir(p);
    var d, name := p[..s], p[s + 1..];
    if name != [] {
      StemPrefix(d, name);
    } else {
      assert StartsWith(p, d);
    }
  }

  /** `d/` followed by the cut stem of `name` is a prefix of `d/name`. */
  lemma StemPrefix(d: string, name: string)
    ensures StartsWith(d + "/" + name, d + "/" + CutAtSeparator(SplitExt(name).0))
  {
    var stem := SplitExt(name).0;
    var c := CutAtSeparator(stem);
    StartsWithTrans(name, stem, c);
    StartsWithPrefixed(d + "/", name, c);
    assert d + "/" + name == (d + "/") + name;
    assert d + "/" + c == (d + "/") + c;
  }

  /** For a path with a plain directory part, the backed-up path is a prefix of it. */
  lemma CoalescedIsPrefix(p: string)
    requires PlainDir(p)
    ensures StartsWith(p, Coalesced(p))
  {
    MainPathIsPrefix(p);
    StartsWithTrans(p, MainPath(p), Coalesced(p));
  }

  /**
   * A task path `d/name` whose name has no extension, no '^' or '!' past its
   * first character, and which has no trailing `^<int>` is backed up as it is.
   */
  lemma CoalescedUnchanged(d: string, name: string)
    requires |d| > 0 && d[|d| - 1] != '/' && '/' !in name && name != []
    requires SplitExt(name).1 == [] && SepInst !in name[1..] && SepPars !in name[1..]
    requires !TrailingInstance(d + "/" + name)
    ensures Coalesced(d + "/" + name) == d + "/" + name
  {
    MainPathJoined(d, name);
    assert SplitExt(name).0 == name;
    CutNothing(name);
    DropInstanceSpec(d + "/" + name);
  }

  /** A '^' in a directory never ends an instance: the path keeps its last '^'-free component. */
  lemma DropInstanceAfterSlash(d: string, b: string)
    requires SepInst !in b
    ensures DropInstance(d + "/" + b) == d + "/" + b
  {
    var m := d + "/" + b;
    var parts := RSplitLast(m, SepInst);
    if |parts| == 2 {
      forall j | |d| < j < |m| ensures m[j] != SepInst { assert m[j] == b[j - |d| - 1]; }
      assert m[|d|] == '/';
      assert m[|parts[0]|] == SepInst;
      assert parts[1][|d| - |parts[0]| - 1] == '/';
      var k := |d| - |parts[0]| - 1;
      NotIntWith(parts[1], k);
    }
  }

  /** An instance `dir/b^n` is backed up as its base `dir/b`. */
  lemma InstanceCoalesces(d: string, b: string, n: string)
    requires |d| > 0 && d[|d| - 1] != '/'
    requires |b| > 0 && SepInst !in b && SepPars !in b && '.' !in b && '/' !in b
    requires IsInt(n)
    ensures Coalesced(d + "/" + b + [SepInst] + n) == d + "/" + b
  {
    IntLiteralFree(n);
    var name := b + [SepInst] + n;
    assert d + "/" + b + [SepInst] + n == d + "/" + name;
    SplitJoined(d, name);
    SplitExtNoDot(name);
    CutAtFirst(b, SepInst, n);
    DropInstanceAfterSlash(d, b);
  }

  // ---- SCP task names ----

  /** The decimal digit of `d`. */
  function DigitChar(d: nat): (c: char)
    requires d < 10
    ensures IsDigit(c)
  {
    ('0' as int + d) as char
  }

  /** Reference decoding: the number a decimal digit string denotes. */
  function DigitsValue(s: string): int
  {
    if s == [] then 0 else DigitsValue(s[..|s| - 1]) * 10 + (s[|s| - 1] as int - '0' as int)
  }

  /** `str(k)` for a natural number: a digit string that denotes `k`. */
  function NatToString(k: nat): (r: string)
    ensures |r| > 0 && AllDigits(r)
    ensures DigitsValue(r) == k
  {
    if k < 10 then [DigitChar(k)]
    else
      var r := NatToString(k / 10) + [DigitChar(k % 10)];
      assert r[..|r| - 1] == NatToString(k / 10);
      r
  }

  /** The clique-size parameter text `k<k>`. */
  function CliqueParam(k: nat): string
  {
    "k" + NatToString(k)
  }

  /**
   * The SCP task name of clique size `k`: the parameter `!k<k>` is put before
   * the shuffle extension, and taking it out again gives back the task.
   */
  function ScpTaskName(task: string, k: nat): (r: string)
    ensures var i := |SplitExt(task).0|;
            var param := [SepPars] + CliqueParam(k);
            i + |param| <= |r| && r[i..i + |param|] == param && r[..i] + r[i + |param|..] == task
  {
    var (taskbasex, taskshuf) := SplitExt(task);
    InsertParam(taskbasex, CliqueParam(k), taskshuf);
    taskbasex + [SepPars] + CliqueParam(k) + taskshuf
  }

  /** A parameter `!c` inserted between `a` and `b` sits right after `a`, and taking it out leaves `a + b`. */
  lemma InsertParam(a: string, c: string, b: string)
    ensures var r := a + [SepPars] + c + b;
            var param := [SepPars] + c;
            |a| + |param| <= |r| && r[|a|..|a| + |param|] == param && r[..|a|] + r[|a| + |param|..] == a + b
  {
    var r := a + [SepPars] + c + b;
    var param := [SepPars] + c;
    assert r == a + param + b;
    assert r[..|a|] == a;
    assert r[|a| + |param|..] == b;
  }

  const ScpClusters: string := ResDir + "scp/" + ClsDir

  lemma ScpClustersShape()
    ensures |ScpClusters| >= 2 && ScpClusters[|ScpClusters| - 1] == '/' && ScpClusters[|ScpClusters| - 2] != '/'
  {
    assert ScpClusters == "results/scp/clusters/";
  }

  /** The cluster directory SCP writes for clique size `k`. */
  function ScpTaskPath(task: string, k: nat, pathid: string): string
  {
    ScpClusters + ScpTaskName(task, k) + pathid
  }

  /** The minimal and maximal clique sizes SCP is run with. */
  const ScpKMin: nat := 3
  const ScpKMax: nat := 8

  /** The task paths of clique sizes `k` to `ScpKMax`, in increasing size. */
  function ScpPathsFrom(task: string, k: nat, pathid: string): (r: seq<string>)
    requires k <= ScpKMax + 1
    ensures |r| == ScpKMax + 1 - k
    ensures forall i :: 0 <= i < |r| ==> r[i] == ScpTaskPath(task, k + i, pathid)
    decreases ScpKMax + 1 - k
  {
    if k > ScpKMax then [] else [ScpTaskPath(task, k, pathid)] + ScpPathsFrom(task, k + 1, pathid)
  }

  /**
   * `execScp`: the task of a network file, and one task path per clique size
   * from 3 to 8. A network whose base name is empty (no file name, or an empty
   * path) fails the assertion on the task name and prepares nothing.
   */
  function ScpTaskPaths(netfile: string, pathid: string): (r: Result<seq<string>>)
    ensures r.Failure? <==> Basename(SplitExt(netfile).0) == []
    ensures r.Failure? ==> r.error == "The network name should exists"
    ensures r.Success? ==> |r.value| == ScpKMax + 1 - ScpKMin
    ensures r.Success? ==> forall i :: 0 <= i < |r.value| ==>
              r.value[i] == ScpTaskPath(Basename(SplitExt(netfile).0), ScpKMin + i, pathid)
  {
    var task := Basename(SplitExt(netfile).0);
    if task == [] then Failure("The network name should exists")
    else Success(ScpPathsFrom(task, ScpKMin, pathid))
  }

  /** A directory given as the network file has no task name, so nothing is prepared for it. */
  lemma ScpDirectoryHasNoTask(pathid: string)
    ensures ScpTaskPaths("nets/", pathid) == Failure("The network name should exists")
  {
  }

  /** Different clique sizes give different SCP task paths. */
  lemma ScpTaskPathInjective(task: string, k1: nat, k2: nat, pathid: string)
    requires k1 != k2
    ensures ScpTaskPath(task, k1, pathid) != ScpTaskPath(task, k2, pathid)
  {
    ScpTaskPathShape(task, k1, pathid);
    ScpTaskPathShape(task, k2, pathid);
    var (x, shuf) := SplitExt(task);
    InfixDistinct(ScpClusters + x + [SepPars] + "k", NatToString(k1), NatToString(k2), shuf + pathid);
  }

  /** The digits of the clique size sit between a prefix and a suffix that do not depend on it. */
  lemma ScpTaskPathShape(task: string, k: nat, pathid: string)
    ensures var (x, shuf) := SplitExt(task);
            ScpTaskPath(task, k, pathid) == (ScpClusters + x + [SepPars] + "k") + NatToString(k) + (shuf + pathid)
  {
    var (x, shuf) := SplitExt(task);
    Regroup(ScpClusters, x + [SepPars], "k", NatToString(k), shuf, pathid);
  }

  lemma Regroup(c: string, x: string, p: string, d: string, shuf: string, pathid: string)
    ensures c + (x + (p + d) + shuf) + pathid == (c + x + p) + d + (shuf + pathid)
  {
    AppendAssoc(x, p, d);
    AppendAssoc(c, x + p + d + shuf, pathid);
    assert x + p + d + shuf + pathid == (x + p) + d + (shuf + pathid);
    assert c + ((x + p) + d + (shuf + pathid)) == (c + x + p) + d + (shuf + pathid);
  }

  /** Distinct texts between one prefix and one suffix give distinct strings. */
  lemma InfixDistinct(pre: string, a: string, b: string, suf: string)
    requires a != b
    ensures pre + a + suf != pre + b + suf
  {
    if |a| == |b| {
      assert (pre + a + suf)[|pre|..|pre| + |a|] == a;
      assert (pre + b + suf)[|pre|..|pre| + |b|] == b;
    }
  }

  /** The six task paths of an SCP run are pairwise distinct, so each clique size has its own directory. */
  lemma ScpTaskPathsDistinct(netfile: string, pathid: string)
    ensures var r := ScpTaskPaths(netfile, pathid);
            r.Success? ==> forall i, j :: 0 <= i < j < |r.value| ==> r.value[i] != r.value[j]
  {
    var r := ScpTaskPaths(netfile, pathid);
    if r.Success? {
      PathsDistinct(r.value, Basename(SplitExt(netfile).0), ScpKMin, pathid);
    }
  }

  /** Task paths of consecutive clique sizes from `k0` are pairwise distinct. */
  lemma PathsDistinct(r: seq<string>, task: string, k0: nat, pathid: string)
    requires forall i :: 0 <= i < |r| ==> r[i] == ScpTaskPath(task, k0 + i, pathid)
    ensures forall i, j :: 0 <= i < j < |r| ==> r[i] != r[j]
  {
    forall i, j | 0 <= i < j < |r| ensures r[i] != r[j] {
      PathPairDistinct(r[i], r[j], task, k0 + i, k0 + j, pathid);
    }
  }

  lemma PathPairDistinct(p: string, q: string, task: string, k1: nat, k2: nat, pathid: string)
    requires p == ScpTaskPath(task, k1, pathid) && q == ScpTaskPath(task, k2, pathid) && k1 != k2
    ensures p != q
  {
    ScpTaskPathInjective(task, k1, k2, pathid);
  }

  /** A shuffle extension as produced by `splitext`: empty or '.' and no further '.' or '/'. */
  predicate ShuffleExt(shuf: string)
  {
    shuf == [] || (shuf[0] == '.' && '.' !in shuf[1..] && '/' !in shuf)
  }

  /** The name part `b!k<k><shuf><pathid>` of an SCP cluster directory. */
  lemma ScpNameShape(b: string, shuf: string, k: nat, pathid: string)
    requires |b| > 0 && '.' !in b && '/' !in b
    requires ShuffleExt(shuf)
    requires pathid == [] || ValidPathId(pathid)
    ensures SplitExt(b + shuf) == (b, shuf)
    ensures ScpTaskName(b + shuf, k) == b + [SepPars] + CliqueParam(k) + shuf
  {
    if shuf == [] {
      assert b + shuf == b;
      SplitExtNoDot(b);
    } else {
      assert b + shuf == "" + b + "." + shuf[1..];
      assert b[0] != '.';
      SplitExtAt("", b, shuf[1..]);
      assert "" + b == b && "." + shuf[1..] == shuf;
    }
  }

  /** The stem `splitext` leaves of an SCP cluster name: the parameter `!k<k>` survives, the shuffle does not. */
  lemma ScpStem(pre: string, shuf: string, pathid: string)
    requires |pre| > 0 && pre[0] != '.' && '.' !in pre && '/' !in pre
    requires ShuffleExt(shuf) && '.' !in pathid && '/' !in pathid
    ensures SplitExt(pre + shuf + pathid).0 == if shuf == [] then pre + pathid else pre
  {
    if shuf == [] {
      assert pre + shuf + pathid == pre + pathid;
      SplitExtNoDot(pre + pathid);
    } else {
      assert pre + shuf + pathid == "" + pre + "." + (shuf[1..] + pathid) by {
        assert shuf == "." + shuf[1..];
      }
      assert '/' !in shuf[1..] by { assert shuf == [shuf[0]] + shuf[1..]; }
      SplitExtAt("", pre, shuf[1..] + pathid);
      assert "" + pre == pre;
    }
  }

  /** The text `!k<k>` after the base of an SCP name holds no '^', '!' (past its first), '.' or '/'. */
  lemma ScpParamFree(k: nat)
    ensures var rest := CliqueParam(k);
            SepInst !in rest && SepPars !in rest && '.' !in rest && '/' !in rest
  {
    AllDigitsIn(NatToString(k));
  }

  /** The stem of an SCP cluster name is cut back to the base `b`. */
  lemma ScpStemCut(b: string, rest: string, shuf: string, pathid: string)
    requires |b| > 0 && '.' !in b && SepInst !in b && SepPars !in b && '/' !in b
    requires SepInst !in rest && SepPars !in rest && '.' !in rest && '/' !in rest
    requires ShuffleExt(shuf)
    requires pathid == [] || ValidPathId(pathid)
    ensures CutAtSeparator(SplitExt(b + [SepPars] + rest + shuf + pathid).0) == b
  {
    PathIdFree(pathid);
    var pre := b + [SepPars] + rest;
    assert pre[0] == b[0];
    ScpStem(pre, shuf, pathid);
    if shuf == [] {
      CutParamThenPathId(b, rest, pathid);
    } else {
      CutAtFirst(b, SepPars, rest);
    }
  }

  lemma CutParamThenPathId(b: string, rest: string, pathid: string)
    requires |b| > 0 && SepInst !in b && SepPars !in b
    requires SepInst !in rest && SepPars !in rest && SepInst !in pathid && SepPars !in pathid
    ensures CutAtSeparator(b + [SepPars] + rest + pathid) == b
  {
    assert b + [SepPars] + rest + pathid == b + [SepPars] + (rest + pathid);
    CutAtFirst(b, SepPars, rest + pathid);
  }

  /**
   * A task path `dir + name` (`dir` given with its final '/') whose name's
   * stem is cut to a '^'-free `b` is backed up as `dir + b`.
   */
  lemma CoalescedInDir(dir: string, name: string, b: string)
    requires |dir| >= 2 && dir[|dir| - 1] == '/' && dir[|dir| - 2] != '/'
    requires '/' !in name && name != []
    requires CutAtSeparator(SplitExt(name).0) == b && SepInst !in b
    ensures Coalesced(dir + name) == dir + b
  {
    var d := dir[..|dir| - 1];
    assert dir == d + "/";
    MainPathJoined(d, name);
    DropInstanceAfterSlash(d, b);
  }

  /** Every SCP variant of a base `b` in a directory `dir` (given with its final '/') is backed up as `dir + b`. */
  lemma VariantCoalesces(dir: string, b: string, rest: string, shuf: string, pathid: string)
    requires |dir| >= 2 && dir[|dir| - 1] == '/' && dir[|dir| - 2] != '/'
    requires |b| > 0 && '.' !in b && SepInst !in b && SepPars !in b && '/' !in b
    requires SepInst !in rest && SepPars !in rest && '.' !in rest && '/' !in rest
    requires ShuffleExt(shuf)
    requires pathid == [] || ValidPathId(pathid)
    ensures Coalesced(dir + (b + [SepPars] + rest + shuf) + pathid) == dir + b
  {
    var pre := b + [SepPars] + rest;
    AppendAssoc(dir, pre + shuf, pathid);
    VariantNameFree(pre, shuf, pathid);
    ScpStemCut(b, rest, shuf, pathid);
    CoalescedInDir(dir, pre + shuf + pathid, b);
  }

  /** A slash-free stem with a shuffle extension and a path id is slash-free. */
  lemma VariantNameFree(pre: string, shuf: string, pathid: string)
    requires '/' !in pre && ShuffleExt(shuf) && (pathid == [] || ValidPathId(pathid))
    ensures '/' !in pre + shuf + pathid
  {
    PathIdFree(pathid);
  }

  /** The stem of a parameter variant of an instance `b^n` is cut back to the base `b`. */
  lemma InstanceStemCut(b: string, n: string, rest: string, shuf: string, pathid: string)
    requires |b| > 0 && '.' !in b && SepInst !in b && SepPars !in b && '/' !in b
    requires IsInt(n)
    requires SepInst !in rest && SepPars !in rest && '.' !in rest && '/' !in rest
    requires ShuffleExt(shuf)
    requires pathid == [] || ValidPathId(pathid)
    ensures CutAtSeparator(SplitExt(b + [SepInst] + n + [SepPars] + rest + shuf + pathid).0) == b
  {
    PathIdFree(pathid);
    var pre := b + [SepInst] + n + [SepPars] + rest;
    InstancePrefixFree(b, n, rest);
    ScpStem(pre, shuf, pathid);
    var tail := if shuf == [] then rest + pathid else rest;
    assert SplitExt(pre + shuf + pathid).0 == b + [SepInst] + n + [SepPars] + tail by {
      if shuf == [] {
        AppendAssoc(b + [SepInst] + n + [SepPars], rest, pathid);
      }
    }
    CutInstanceParams(b, n, tail);
  }

  /** The name of an instance `b^n!rest` does not start with '.' and holds no '.' or '/'. */
  lemma InstancePrefixFree(b: string, n: string, rest: string)
    requires |b| > 0 && '.' !in b && '/' !in b
    requires IsInt(n)
    requires '.' !in rest && '/' !in rest
    ensures var pre := b + [SepInst] + n + [SepPars] + rest;
            |pre| > 0 && pre[0] != '.' && '.' !in pre && '/' !in pre
  {
    IntLiteralFree(n);
    var pre := b + [SepInst] + n + [SepPars] + rest;
    assert pre[0] == b[0];
  }

  /** Every parameter variant of an instance `b^n` in a directory `dir` (given with its final '/') is backed up as `dir + b`. */
  lemma InstanceVariantCoalesces(dir: string, b: string, n: string, rest: string, shuf: string, pathid: string)
    requires |dir| >= 2 && dir[|dir| - 1] == '/' && dir[|dir| - 2] != '/'
    requires |b| > 0 && '.' !in b && SepInst !in b && SepPars !in b && '/' !in b
    requires IsInt(n)
    requires SepInst !in rest && SepPars !in rest && '.' !in rest && '/' !in rest
    requires ShuffleExt(shuf)
    requires pathid == [] || ValidPathId(pathid)
    ensures Coalesced(dir + (b + [SepInst] + n + [SepPars] + rest + shuf) + pathid) == dir + b
  {
    var pre := b + [SepInst] + n + [SepPars] + rest;
    AppendAssoc(dir, pre + shuf, pathid);
    InstanceNameFree(b, n, rest);
    VariantNameFree(pre, shuf, pathid);
    InstanceStemCut(b, n, rest, shuf, pathid);
    CoalescedInDir(dir, pre + shuf + pathid, b);
  }

  lemma InstanceNameFree(b: string, n: string, rest: string)
    requires '/' !in b && IsInt(n) && '/' !in rest
    ensures '/' !in b + [SepInst] + n + [SepPars] + rest
  {
    IntLiteralFree(n);
  }

  /**
   * Every SCP variant `b!k<k>[.shuf][pathid]` of a base `b` is backed up as
   * `results/scp/clusters/b`, so one backup covers all clique sizes and shuffles.
   */
  lemma ScpVariantCoalesces(b: string, shuf: string, k: nat, pathid: string)
    requires |b| > 0 && '.' !in b && SepInst !in b && SepPars !in b && '/' !in b
    requires ShuffleExt(shuf)
    requires pathid == [] || ValidPathId(pathid)
    ensures Coalesced(ScpTaskPath(b + shuf, k, pathid)) == ScpClusters + b
  {
    ScpNameShape(b, shuf, k, pathid);
    ScpParamFree(k);
    ScpClustersShape();
    VariantCoalesces(ScpClusters, b, CliqueParam(k), shuf, pathid);
  }

  /**
   * The SCP variants of an instance `b^n` are backed up with those of `b`
   * itself, as `results/scp/clusters/b`.
   */
  lemma ScpInstanceCoalesces(b: string, n: string, shuf: string, k: nat, pathid: string)
    requires |b| > 0 && '.' !in b && SepInst !in b && SepPars !in b && '/' !in b
    requires IsInt(n) && ShuffleExt(shuf)
    requires pathid == [] || ValidPathId(pathid)
    ensures Coalesced(ScpTaskPath(b + [SepInst] + n + shuf, k, pathid)) == ScpClusters + b
  {
    IntLiteralFree(n);
    var bn := b + [SepInst] + n;
    assert '.' !in bn && '/' !in bn;
    ScpNameShape(bn, shuf, k, pathid);
    ScpParamFree(k);
    ScpClustersShape();
    InstanceVariantCoalesces(ScpClusters, b, n, CliqueParam(k), shuf, pathid);
  }

  /** The SCP task of a network file `d/b<shuf>.<ext>` is `b<shuf>`. */
  lemma ScpNetTask(d: string, b: string, shuf: string, e: string)
    requires |d| > 0 && d[|d| - 1] != '/'
    requires |b| > 0 && '.' !in b && '/' !in b && ShuffleExt(shuf)
    requires '.' !in e && '/' !in e
    ensures Basename(SplitExt(d + "/" + b + shuf + "." + e).0) == b + shuf
  {
    assert '/' !in b + shuf by {
      forall i | 0 <= i < |b + shuf| ensures (b + shuf)[i] != '/' {
        if i >= |b| { assert (b + shuf)[i] == shuf[i - |b|]; }
      }
    }
    assert (b + shuf)[0] == b[0] != '.';
    assert d + "/" + b + shuf + "." + e == (d + "/") + (b + shuf) + "." + e;
    SplitExtAt(d + "/", b + shuf, e);
    assert (d + "/") + (b + shuf) == d + "/" + (b + shuf);
    SplitJoined(d, b + shuf);
  }

  /** All task paths of a network whose task is `b + shuf` are backed up under `results/scp/clusters/b`. */
  lemma ScpPathsOfTask(netfile: string, b: string, shuf: string, pathid: string)
    requires Basename(SplitExt(netfile).0) == b + shuf
    requires |b| > 0 && '.' !in b && SepInst !in b && SepPars !in b && '/' !in b
    requires ShuffleExt(shuf)
    requires pathid == [] || ValidPathId(pathid)
    ensures var r := ScpTaskPaths(netfile, pathid);
            r.Success? && forall i :: 0 <= i < |r.value| ==> Coalesced(r.value[i]) == ScpClusters + b
  {
    PathsCoalesce(ScpTaskPaths(netfile, pathid).value, b, shuf, ScpKMin, pathid);
  }

  /** Task paths of any clique sizes for the task `b + shuf` are all backed up as `results/scp/clusters/b`. */
  lemma PathsCoalesce(r: seq<string>, b: string, shuf: string, k0: nat, pathid: string)
    requires forall i :: 0 <= i < |r| ==> r[i] == ScpTaskPath(b + shuf, k0 + i, pathid)
    requires |b| > 0 && '.' !in b && SepInst !in b && SepPars !in b && '/' !in b
    requires ShuffleExt(shuf)
    requires pathid == [] || ValidPathId(pathid)
    ensures forall i :: 0 <= i < |r| ==> Coalesced(r[i]) == ScpClusters + b
  {
    forall i | 0 <= i < |r| ensures Coalesced(r[i]) == ScpClusters + b {
      PathCoalesces(r[i], b, shuf, k0 + i, pathid);
    }
  }

  lemma PathCoalesces(p: string, b: string, shuf: string, k: nat, pathid: string)
    requires p == ScpTaskPath(b + shuf, k, pathid)
    requires |b| > 0 && '.' !in b && SepInst !in b && SepPars !in b && '/' !in b
    requires ShuffleExt(shuf)
    requires pathid == [] || ValidPathId(pathid)
    ensures Coalesced(p) == ScpClusters + b
  {
    ScpVariantCoalesces(b, shuf, k, pathid);
  }

  /**
   * `execScp` prepares one directory per clique size 3..8, and all of them are
   * backed up under the one path `results/scp/clusters/b`.
   */
  lemma ScpTaskPathsShareBackup(d: string, b: string, shuf: string, e: string, pathid: string)
    requires |d| > 0 && d[|d| - 1] != '/'
    requires |b| > 0 && '.' !in b && SepInst !in b && SepPars !in b && '/' !in b
    requires ShuffleExt(shuf) && '.' !in e && '/' !in e
    requires pathid == [] || ValidPathId(pathid)
    ensures var r := ScpTaskPaths(d + "/" + b + shuf + "." + e, pathid);
            r.Success? && forall i :: 0 <= i < |r.value| ==> Coalesced(r.value[i]) == ScpClusters + b
  {
    ScpNetTask(d, b, shuf, e);
    ScpPathsOfTask(d + "/" + b + shuf + "." + e, b, shuf, pathid);
  }
}

=== FILE: pypath.dfy ===
/**
 * The two `os.path` operations of POSIX Python the naming convention uses:
 * `split` (cut at the last '/') and `splitext` (cut at the last '.' of the last
 * path component, unless the component's text before that '.' is dots only).
 */
module PyPath {
  import opened PyStr

  predicate AllSlashes(s: string)
  {
    forall i :: 0 <= i < |s| ==> s[i] == '/'
  }

  /** `s.rstrip('/')` */
  function RStripSlashes(s: string): (r: string)
    ensures |r| <= |s| && r == s[..|r|]
    ensures forall i :: |r| <= i < |s| ==> s[i] == '/'
    ensures |r| > 0 ==> r[|r| - 1] != '/'
  {
    if |s| > 0 && s[|s| - 1] == '/' then RStripSlashes(s[..|s| - 1]) else s
  }

  /**
   * `os.path.split(p)`: the tail is the text after the last '/', the head the
   * text up to it, with trailing slashes removed unless the head is only slashes.
   */
  function Split(p: string): (r: (string, string))
    ensures '/' !in r.1 && EndsWith(p, r.1)
    ensures |r.1| == |p| || p[|p| - |r.1| - 1] == '/'
    ensures StartsWith(p, r.0)
    ensures var head := p[..|p| - |r.1|];
            if AllSlashes(head) then r.0 == head
            else |r.0| > 0 && StartsWith(head, r.0) && r.0[|r.0| - 1] != '/' && AllSlashes(head[|r.0|..])
  {
    var i := RFind(p, '/') + 1;
    var head := p[..i];
    var tail := p[i..];
    assert '/' !in tail by {
      forall j | 0 <= j < |tail| ensures tail[j] != '/' { assert tail[j] == p[i + j]; }
    }
    assert p[|p| - |tail|..] == tail;
    if |head| > 0 && !AllSlashes(head) then
      var h := RStripSlashes(head);
      assert p[..|h|] == head[..|h|] == h;
      assert AllSlashes(head[|h|..]) by {
        forall j | 0 <= j < |head[|h|..]| ensures head[|h|..][j] == '/' { assert head[|h|..][j] == head[|h| + j]; }
      }
      (h, tail)
    else (head, tail)
  }

  /** The last path component of `p`, `os.path.split(p)[1]`. */
  function Basename(p: string): string
  {
    Split(p).1
  }

  /** A directory `d` (non-empty, not ending in '/') joined to a name splits back into both. */
  lemma SplitJoined(d: string, n: string)
    requires |d| > 0 && d[|d| - 1] != '/' && '/' !in n
    ensures Split(d + "/" + n) == (d, n)
  {
    var p := d + "/" + n;
    assert p[|d|] == '/';
    assert RFind(p, '/') == |d|;
    assert p[..|d| + 1] == d + "/";
    assert !AllSlashes(d + "/") by { assert (d + "/")[|d| - 1] != '/'; }
    assert RStripSlashes(d + "/") == d by {
      assert (d + "/")[..|d|] == d;
    }
  }

  /** The base name of a path whose directory part ends in '/' is the name after it. */
  lemma BasenameAfterSlash(pre: string, name: string)
    requires |pre| > 0 && pre[|pre| - 1] == '/' && '/' !in name
    ensures Basename(pre + name) == name
  {
    var p := pre + name;
    assert p[|pre| - 1] == '/';
    assert p[|pre|..] == name;
    RFindAt(p, '/', |pre| - 1);
  }

  /** Some character of `p[lo..hi]` is not a dot. */
  predicate HasNonDot(p: string, lo: int, hi: int)
  {
    exists k :: lo <= k < hi && 0 <= k < |p| && p[k] != '.'
  }

  /** The text from a last '.' that has no '/' after it is an extension. */
  lemma ExtensionFrom(p: string, dot: int)
    requires 0 <= dot < |p| && p[dot] == '.'
    requires forall j :: dot < j < |p| ==> p[j] != '.' && p[j] != '/'
    ensures p[..dot] + p[dot..] == p
    ensures p[dot..][0] == '.' && '/' !in p[dot..] && '.' !in p[dot..][1..]
  {
    var ext := p[dot..];
    forall i | 0 <= i < |ext| ensures ext[i] != '/' && (i > 0 ==> ext[i] != '.') {
      assert ext[i] == p[dot + i];
    }
    forall i | 0 <= i < |ext[1..]| ensures ext[1..][i] != '.' {
      assert ext[1..][i] == ext[i + 1];
    }
  }

  /**
   * Reference form of an extension: the '.' at `d` is the last '.' of `p`, no
   * '/' follows it, and some character of its component before it is not a '.'.
   */
  predicate ExtensionAt(p: string, d: int)
  {
    0 <= d < |p| && p[d] == '.' &&
    (forall j :: d < j < |p| ==> p[j] != '.' && p[j] != '/') &&
    exists k :: 0 <= k < d && p[k] != '.' && '/' !in p[k..d]
  }

  /** An extension found the reference way is the one `rfind` locates. */
  lemma ExtensionAtFound(p: string, d: int)
    requires ExtensionAt(p, d)
    ensures RFind(p, '.') == d && RFind(p, '/') < d && HasNonDot(p, RFind(p, '/') + 1, d)
  {
    var after := p[d + 1..];
    RFindAt(p, '.', d) by {
      forall j | 0 <= j < |after| ensures after[j] != '.' { assert after[j] == p[d + 1 + j]; }
    }
    var k :| 0 <= k < d && p[k] != '.' && '/' !in p[k..d];
    forall j | k <= j < |p| ensures p[j] != '/' {
      if j < d { assert p[j] == p[k..d][j - k]; }
    }
    assert k > RFind(p, '/');
  }

  /** The extension `rfind` locates satisfies the reference form. */
  lemma ExtensionAtOf(p: string, sep: int, dot: int)
    requires sep == RFind(p, '/') && dot == RFind(p, '.')
    requires dot > sep && HasNonDot(p, sep + 1, dot)
    ensures ExtensionAt(p, dot)
  {
    var k :| sep + 1 <= k < dot && 0 <= k < |p| && p[k] != '.';
    assert '/' !in p[k..dot] by {
      forall j | 0 <= j < dot - k ensures p[k..dot][j] != '/' { assert p[k..dot][j] == p[k + j]; }
    }
  }

  /**
   * `os.path.splitext(p)`: the extension starts at the last '.' when it lies in
   * the last component and some non-'.' character of that component precedes it.
   */
  function SplitExt(p: string): (r: (string, string))
    ensures r.0 + r.1 == p
    ensures r.1 == [] || (r.1[0] == '.' && '/' !in r.1 && '.' !in r.1[1..])
    ensures r.1 != [] <==> exists d :: ExtensionAt(p, d)
    ensures r.1 != [] ==> ExtensionAt(p, |r.0|)
    ensures |p| > 0 ==> |r.0| > 0
  {
    var sep := RFind(p, '/');
    var dot := RFind(p, '.');
    if dot > sep && HasNonDot(p, sep + 1, dot) then
      ExtensionFrom(p, dot);
      ExtensionAtOf(p, sep, dot);
      (p[..dot], p[dot..])
    else
      assert forall d :: !ExtensionAt(p, d) by {
        forall d | ExtensionAt(p, d) ensures false { ExtensionAtFound(p, d); }
      }
      (p, [])
  }

  /** A component with a non-dot character before its final `.`+extension splits there. */
  lemma SplitExtAt(pre: string, x: string, e: string)
    requires '/' !in x && '/' !in e && '.' !in e
    requires exists k :: 0 <= k < |x| && x[k] != '.'
    ensures SplitExt(pre + x + "." + e) == (pre + x, "." + e)
  {
    var p := pre + x + "." + e;
    var dot := |pre| + |x|;
    assert p[dot] == '.';
    forall j | dot < j < |p| ensures p[j] != '.' && p[j] != '/' {
      assert p[j] == e[j - dot - 1];
    }
    assert RFind(p, '.') == dot;
    var sep := RFind(p, '/');
    forall j | |pre| <= j < dot ensures p[j] != '/' {
      assert p[j] == x[j - |pre|];
    }
    assert sep < |pre|;
    var k :| 0 <= k < |x| && x[k] != '.';
    assert p[|pre| + k] == x[k];
    assert HasNonDot(p, sep + 1, dot);
    assert p[..dot] == pre + x;
    assert p[dot..] == "." + e;
  }

  /** A path without any '.' has no extension. */
  lemma SplitExtNoDot(p: string)
    requires '.' !in p
    ensures SplitExt(p) == (p, [])
  {
    assert RFind(p, '.') == -1;
  }
}

=== FILE: pystr.dfy ===
/**
 * The Python `str` operations the naming convention relies on, on `seq<char>`:
 * `rfind`, `find`, `startswith`, `endswith`, `rsplit(c, 1)`, `replace`,
 * clamped slicing `s[i:]`, and the literal syntax accepted by Python 2's `int()`.
 */
module PyStr {

  /** Index of the last occurrence of `c` in `s`, or -1 (`s.rfind(c)`). */
  function RFind(s: string, c: char): (r: int)
    ensures -1 <= r < |s|
    ensures r >= 0 ==> s[r] == c
    ensures forall k :: r < k < |s| ==> s[k] != c
  {
    if |s| == 0 then -1
    else if s[|s| - 1] == c then |s| - 1
    else RFind(s[..|s| - 1], c)
  }

  /** An occurrence with no later one is the last. */
  lemma RFindAt(s: string, c: char, k: int)
    requires 0 <= k < |s| && s[k] == c && c !in s[k + 1..]
    ensures RFind(s, c) == k
  {
    forall j | k < j < |s| ensures s[j] != c {
      assert s[j] == s[k + 1..][j - k - 1];
    }
  }

  /** A character that does not occur is not found. */
  lemma RFindAbsent(s: string, c: char)
    requires c !in s
    ensures RFind(s, c) == -1
  {
    forall j | 0 <= j < |s| ensures s[j] != c {
      assert s[j] in s;
    }
  }

  /** `sub` occurs in `s` starting at index `k`. */
  predicate OccursAt(s: string, sub: string, k: int)
  {
    0 <= k && k + |sub| <= |s| && s[k..k + |sub|] == sub
  }

  /** `k` is the first occurrence of `sub` in `s`. */
  predicate FirstAt(s: string, sub: string, k: int)
  {
    OccursAt(s, sub, k) && forall j :: 0 <= j < k ==> !OccursAt(s, sub, j)
  }

  lemma FirstAtUnique(s: string, sub: string, k1: int, k2: int)
    requires FirstAt(s, sub, k1) && FirstAt(s, sub, k2)
    ensures k1 == k2
  {
  }

  /** Index of the first occurrence of `sub` in `s`, or -1 (`s.find(sub)`). */
  function Find(s: string, sub: string): (r: int)
    ensures r == -1 || OccursAt(s, sub, r)
    ensures forall k :: 0 <= k && (r == -1 || k < r) ==> !OccursAt(s, sub, k)
  {
    FindFrom(s, sub, 0)
  }

  function FindFrom(s: string, sub: string, i: nat): (r: int)
    requires i <= |s|
    ensures r == -1 || (i <= r && OccursAt(s, sub, r))
    ensures forall k :: i <= k && (r == -1 || k < r) ==> !OccursAt(s, sub, k)
    decreases |s| - i
  {
    if OccursAt(s, sub, i) then i
    else if i == |s| then -1
    else FindFrom(s, sub, i + 1)
  }

  /** `s.startswith(p)` */
  predicate StartsWith(s: string, p: string)
  {
    |p| <= |s| && s[..|p|] == p
  }

  lemma AppendAssoc<T>(a: seq<T>, b: seq<T>, c: seq<T>)
    ensures a + b + c == a + (b + c)
  {
  }

  lemma TakeDrop<T>(s: seq<T>, k: int)
    requires 0 <= k <= |s|
    ensures s[..k] + s[k..] == s
  {
  }

  lemma StartsWithTrans(s: string, m: string, p: string)
    requires StartsWith(s, m) && StartsWith(m, p)
    ensures StartsWith(s, p)
  {
    assert s[..|p|] == s[..|m|][..|p|];
  }

  lemma StartsWithPrefixed(pre: string, s: string, p: string)
    requires StartsWith(s, p)
    ensures StartsWith(pre + s, pre + p)
  {
    assert (pre + s)[..|pre + p|] == pre + s[..|p|];
  }

  /** `s.endswith(p)` */
  predicate EndsWith(s: string, p: string)
  {
    |p| <= |s| && s[|s| - |p|..] == p
  }

  /** `s[i:]` for a non-negative `i`: the slice is clamped to the end of `s`. */
  function SliceFrom(s: string, i: nat): (r: string)
  {
    if i <= |s| then s[i..] else []
  }

  /**
   * `s.rsplit(c, 1)`: one part when `c` does not occur, otherwise the text
   * before and after its last occurrence.
   */
  function RSplitLast(s: string, c: char): (r: seq<string>)
    ensures |r| == 1 || |r| == 2
    ensures |r| == 1 ==> r[0] == s && c !in s
    ensures |r| == 2 ==> s == r[0] + [c] + r[1] && c !in r[1]
  {
    var i := RFind(s, c);
    if i == -1 then [s]
    else
      assert s == s[..i] + [c] + s[i + 1..];
      [s[..i], s[i + 1..]]
  }

  /** `s.replace(pat, rep)`: every non-overlapping occurrence, scanning left to right. */
  function Replace(s: string, pat: string, rep: string): (r: string)
    ensures pat == rep ==> r == s
    decreases |s|
  {
    if |pat| == 0 then
      (if |s| == 0 then rep else rep + [s[0]] + Replace(s[1..], pat, rep))
    else if |s| == 0 then []
    else if StartsWith(s, pat) then rep + Replace(s[|pat|..], pat, rep)
    else [s[0]] + Replace(s[1..], pat, rep)
  }

  /** Text in which the pattern never occurs is left as it is. */
  lemma {:induction false} ReplaceNoMatch(s: string, pat: string, rep: string)
    requires |pat| > 0 && forall k :: !OccursAt(s, pat, k)
    ensures Replace(s, pat, rep) == s
    decreases |s|
  {
    if |s| > 0 {
      assert !OccursAt(s, pat, 0);
      forall k ensures !OccursAt(s[1..], pat, k) {
        if OccursAt(s[1..], pat, k) {
          assert s[1..][k..k + |pat|] == s[k + 1..k + 1 + |pat|];
          assert OccursAt(s, pat, k + 1);
        }
      }
      ReplaceNoMatch(s[1..], pat, rep);
      assert [s[0]] + s[1..] == s;
    }
  }

  /** Text before the first occurrence of the pattern is copied as it is. */
  lemma {:induction false} ReplaceKeep(a: string, b: string, pat: string, rep: string)
    requires |pat| > 0
    requires forall j :: 0 <= j < |a| ==> !OccursAt(a + b, pat, j)
    ensures Replace(a + b, pat, rep) == a + Replace(b, pat, rep)
    decreases |a|
  {
    if |a| == 0 {
      assert a + b == b;
    } else {
      var ab := a + b;
      assert !StartsWith(ab, pat) by {
        assert !OccursAt(ab, pat, 0);
        if |pat| <= |ab| { assert ab[..|pat|] == ab[0..0 + |pat|]; }
      }
      assert ab[0] == a[0];
      assert ab[1..] == a[1..] + b;
      forall j | 0 <= j < |a| - 1 ensures !OccursAt(a[1..] + b, pat, j) {
        assert !OccursAt(ab, pat, j + 1);
        if j + |pat| <= |a[1..] + b| {
          assert (a[1..] + b)[j..j + |pat|] == ab[j + 1..j + 1 + |pat|];
        }
      }
      ReplaceKeep(a[1..], b, pat, rep);
      assert [a[0]] + a[1..] == a;
      AppendAssoc([a[0]], a[1..], Replace(b, pat, rep));
    }
  }

  /**
   * The first occurrence of the pattern is replaced, the text before it is
   * kept, and the scan resumes right after it.
   */
  lemma ReplaceFirst(s: string, pat: string, rep: string, k: int)
    requires |pat| > 0 && FirstAt(s, pat, k)
    ensures Replace(s, pat, rep) == s[..k] + rep + Replace(s[k + |pat|..], pat, rep)
  {
    TakeDrop(s, k);
    ReplaceKeep(s[..k], s[k..], pat, rep);
    ReplaceHere(s, pat, rep, k);
    AppendAssoc(s[..k], rep, Replace(s[k + |pat|..], pat, rep));
  }

  /** Where the pattern occurs, `replace` writes the replacement and goes on after it. */
  lemma ReplaceHere(s: string, pat: string, rep: string, k: int)
    requires |pat| > 0 && OccursAt(s, pat, k)
    ensures Replace(s[k..], pat, rep) == rep + Replace(s[k + |pat|..], pat, rep)
  {
    var at := s[k..];
    assert StartsWith(at, pat) by { assert at[..|pat|] == s[k..k + |pat|]; }
    assert at[|pat|..] == s[k + |pat|..];
  }

  /** A text ending in its first occurrence of the pattern gets that occurrence replaced. */
  lemma ReplaceAtEnd(a: string, pat: string, rep: string)
    requires |pat| > 0
    requires forall k :: 0 <= k < |a| ==> !OccursAt(a + pat, pat, k)
    ensures Replace(a + pat, pat, rep) == a + rep
  {
    var s := a + pat;
    assert s[|a|..|a| + |pat|] == pat;
    ReplaceFirst(s, pat, rep, |a|);
    assert s[..|a|] == a;
    assert s[|a| + |pat|..] == [];
    assert a + rep + [] == a + rep;
  }

  /** A pattern ending in `c` that is replaced in `a + b`, where `b` has no `c`,
      is only ever replaced inside `a`. */
  lemma {:induction false} ReplaceAppend(a: string, b: string, pat: string, rep: string)
    requires |pat| > 0 && pat[|pat| - 1] !in b
    ensures Replace(a + b, pat, rep) == Replace(a, pat, rep) + b
    decreases |a|
  {
    if |a| == 0 {
      assert a + b == b;
      ReplaceAbsent(b, pat, rep);
    } else if StartsWith(a + b, pat) {
      assert (a + b)[|pat| - 1] == pat[|pat| - 1];
      assert |pat| <= |a|;
      assert StartsWith(a, pat) by { assert a[..|pat|] == (a + b)[..|pat|]; }
      assert (a + b)[|pat|..] == a[|pat|..] + b;
      ReplaceAppend(a[|pat|..], b, pat, rep);
    } else {
      assert !StartsWith(a, pat) by {
        if |pat| <= |a| { assert (a + b)[..|pat|] == a[..|pat|]; }
      }
      assert (a + b)[0] == a[0];
      assert (a + b)[1..] == a[1..] + b;
      ReplaceAppend(a[1..], b, pat, rep);
    }
  }

  /** Text free of the pattern's last character is left as it is. */
  lemma {:induction false} ReplaceAbsent(s: string, pat: string, rep: string)
    requires |pat| > 0 && pat[|pat| - 1] !in s
    ensures Replace(s, pat, rep) == s
    decreases |s|
  {
    if |s| > 0 {
      assert !StartsWith(s, pat) by {
        if |pat| <= |s| { assert s[..|pat|][|pat| - 1] != pat[|pat| - 1]; }
      }
      ReplaceAbsent(s[1..], pat, rep);
      assert [s[0]] + s[1..] == s;
    }
  }

  // ---- Python 2 `int()` on a byte string ----

  /** C `isspace`: space, tab, newline, vertical tab, form feed, carriage return. */
  predicate IsSpace(ch: char)
  {
    ch == ' ' || ('\t' <= ch <= '\r')
  }

  predicate IsDigit(ch: char)
  {
    '0' <= ch <= '9'
  }

  predicate AllDigits(s: string)
  {
    forall i :: 0 <= i < |s| ==> IsDigit(s[i])
  }

  /** Every character of a digit string is a digit. */
  lemma AllDigitsIn(s: string)
    requires AllDigits(s)
    ensures forall ch :: ch in s ==> IsDigit(ch)
  {
    forall ch | ch in s ensures IsDigit(ch) {
      var i :| 0 <= i < |s| && s[i] == ch;
    }
  }

  /** `s` without its leading whitespace. */
  function LStripSpace(s: string): string
  {
    if |s| > 0 && IsSpace(s[0]) then LStripSpace(s[1..]) else s
  }

  /** `s` without its trailing whitespace. */
  function RStripSpace(s: string): string
  {
    if |s| > 0 && IsSpace(s[|s| - 1]) then RStripSpace(s[..|s| - 1]) else s
  }

  /** Left stripping removes a run of whitespace from the front and nothing else. */
  lemma {:induction false} LStripSpaceSpec(s: string)
    ensures var r := LStripSpace(s);
            |r| <= |s| && r == s[|s| - |r|..] &&
            (forall i :: 0 <= i < |s| - |r| ==> IsSpace(s[i])) &&
            (|r| > 0 ==> !IsSpace(r[0]))
    decreases |s|
  {
    if |s| > 0 && IsSpace(s[0]) {
      LStripSpaceSpec(s[1..]);
      var r := LStripSpace(s);
      forall i | 0 <= i < |s| - |r| ensures IsSpace(s[i]) {
        if i > 0 { assert s[1..][i - 1] == s[i]; }
      }
    }
  }

  /** Right stripping removes a run of whitespace from the back and nothing else. */
  lemma {:induction false} RStripSpaceSpec(s: string)
    ensures var r := RStripSpace(s);
            |r| <= |s| && r == s[..|r|] &&
            (forall i :: |r| <= i < |s| ==> IsSpace(s[i])) &&
            (|r| > 0 ==> !IsSpace(r[|r| - 1]))
    decreases |s|
  {
    if |s| > 0 && IsSpace(s[|s| - 1]) {
      RStripSpaceSpec(s[..|s| - 1]);
      var r := RStripSpace(s);
      forall i | |r| <= i < |s| ensures IsSpace(s[i]) {
        if i < |s| - 1 { assert s[..|s| - 1][i] == s[i]; }
      }
    }
  }

  /** An optional sign followed by at least one decimal digit. */
  predicate IsDecimal(t: string)
  {
    if |t| > 0 && (t[0] == '+' || t[0] == '-') then |t| > 1 && AllDigits(t[1..])
    else |t| > 0 && AllDigits(t)
  }

  /**
   * `int(s)` succeeds: a decimal literal, possibly surrounded by whitespace.
   * Every non-empty run of digits is one; each one is non-empty and starts and
   * ends with whitespace, a sign or a digit.
   */
  predicate IsInt(s: string)
    ensures |s| > 0 && AllDigits(s) ==> IsInt(s)
    ensures IsInt(s) ==> |s| > 0 && IntChar(s[0]) && IntChar(s[|s| - 1])
  {
    if IsDecimal(RStripSpace(LStripSpace(s))) then
      DecimalChars(s);
      true
    else false
  }

  /** A character that may appear in an integer literal accepted by `int()`. */
  predicate IntChar(ch: char)
  {
    IsSpace(ch) || IsDigit(ch) || ch == '+' || ch == '-'
  }

  /** An integer literal is non-empty and made only of whitespace, signs and digits;
      so it never holds a separator such as `.`, `#`, `^`, `!`, `/` or `_`. */
  lemma IntLiteralChars(s: string)
    ensures IsInt(s) ==> |s| > 0 && forall i :: 0 <= i < |s| ==> IntChar(s[i])
  {
    if IsInt(s) {
      DecimalChars(s);
    }
  }

  /** Text that is a decimal literal once stripped is made only of whitespace, signs and digits. */
  lemma DecimalChars(s: string)
    requires IsDecimal(RStripSpace(LStripSpace(s)))
    ensures |s| > 0 && forall i :: 0 <= i < |s| ==> IntChar(s[i])
  {
    var l := LStripSpace(s);
    var t := RStripSpace(l);
    StripParts(s, l, t);
    DecimalIntChars(t);
    PaddedIntChars(s, l, t);
  }

  /** Stripping both ends leaves whitespace around the stripped text. */
  lemma StripParts(s: string, l: string, t: string)
    requires l == LStripSpace(s) && t == RStripSpace(l)
    ensures |t| <= |l| <= |s|
    ensures forall i :: 0 <= i < |l| ==> l[i] == s[|s| - |l| + i]
    ensures forall i :: 0 <= i < |s| - |l| ==> IsSpace(s[i])
    ensures forall j :: 0 <= j < |t| ==> t[j] == l[j]
    ensures forall j :: |t| <= j < |l| ==> IsSpace(l[j])
  {
    LeftStripped(s, l);
    RightStripped(l, t);
  }

  lemma LeftStripped(s: string, l: string)
    requires l == LStripSpace(s)
    ensures |l| <= |s|
    ensures forall i :: 0 <= i < |l| ==> l[i] == s[|s| - |l| + i]
    ensures forall i :: 0 <= i < |s| - |l| ==> IsSpace(s[i])
  {
    LStripSpaceSpec(s);
    forall i | 0 <= i < |l| ensures l[i] == s[|s| - |l| + i] {
      assert l == s[|s| - |l|..];
    }
  }

  lemma RightStripped(l: string, t: string)
    requires t == RStripSpace(l)
    ensures |t| <= |l|
    ensures forall j :: 0 <= j < |t| ==> t[j] == l[j]
    ensures forall j :: |t| <= j < |l| ==> IsSpace(l[j])
  {
    RStripSpaceSpec(l);
    forall j | 0 <= j < |t| ensures t[j] == l[j] {
      assert t == l[..|t|];
    }
  }

  /** Whitespace, then a text of integer characters, then whitespace, is all integer characters. */
  lemma PaddedIntChars(s: string, l: string, t: string)
    requires |t| <= |l| <= |s|
    requires forall i :: 0 <= i < |l| ==> l[i] == s[|s| - |l| + i]
    requires forall i :: 0 <= i < |s| - |l| ==> IsSpace(s[i])
    requires forall j :: 0 <= j < |t| ==> t[j] == l[j]
    requires forall j :: |t| <= j < |l| ==> IsSpace(l[j])
    requires forall j :: 0 <= j < |t| ==> IntChar(t[j])
    ensures forall i :: 0 <= i < |s| ==> IntChar(s[i])
  {
    forall i | 0 <= i < |s| ensures IntChar(s[i]) {
      var d := |s| - |l|;
      if i >= d {
        assert s[i] == l[i - d];
        if i - d < |t| { assert l[i - d] == t[i - d]; }
      }
    }
  }

  /** A decimal literal is made only of a sign and digits. */
  lemma DecimalIntChars(t: string)
    requires IsDecimal(t)
    ensures |t| > 0
    ensures forall j :: 0 <= j < |t| ==> IntChar(t[j])
  {
    forall j | 0 <= j < |t| ensures IntChar(t[j]) {
      if j > 0 && (t[0] == '+' || t[0] == '-') {
        assert t[1..][j - 1] == t[j];
      }
    }
  }

  /** The separators of the naming convention never occur in an integer literal. */
  lemma IntLiteralFree(s: string)
    ensures IsInt(s) ==> |s| > 0 && '.' !in s && '/' !in s && '^' !in s && '!' !in s
                         && '#' !in s && '_' !in s
  {
    IntLiteralChars(s);
    if IsInt(s) {
      forall ch | ch in s ensures IntChar(ch) {
        var i :| 0 <= i < |s| && s[i] == ch;
      }
    }
  }

  /** Text holding a character foreign to integer literals is not one. */
  lemma NotIntWith(s: string, k: int)
    requires 0 <= k < |s| && !IntChar(s[k])
    ensures !IsInt(s)
  {
    IntLiteralChars(s);
  }
}

=== FILE: runs.dfy ===
/**
 * A dispatched evaluation run end to end: the plan's accumulation files are
 * removed while the jobs are planned, then the finished jobs append to them.
 */
module Runs {
  import opened PyStr
  import opened Measures
  import opened Accumulation
  import opened Evaluator

  /** Every finished job appends to the accumulation file of one of the plan's jobs. */
  predicate FromPlan(plan: Plan, ds: seq<Done>)
  {
    forall i :: 0 <= i < |ds| ==> exists j :: j in plan.jobs && ds[i].file == j.taskOutput
  }

  /**
   * A `mod` or `nmi` run empties the accumulation file of each of its jobs
   * before any append: afterwards it holds this run's header and rows only.
   */
  lemma TidyRunStartsEmpty<V>(algname: string, basefile: string, measure: string, pathid: string,
                              listing: seq<GroupEntry>, ps: Parsers<V>, render: V -> string,
                              store: Store, ds: seq<Done>, j: Job)
    requires EvalAlgorithm(algname, basefile, measure, pathid, listing).Success?
    requires measure != "nmi_s"
    requires j in EvalAlgorithm(algname, basefile, measure, pathid, listing).value.jobs
    ensures var m := ParseMeasure(measure).value;
            var plan := EvalAlgorithm(algname, basefile, measure, pathid, listing).value;
            var rows := Rows(m, ps, render, OnFile(ds, j.taskOutput));
            Read(Run(m, ps, render, store, plan.cleared, ds), j.taskOutput) == HeaderFor(m, [], rows) + rows
  {
    EvalAlgorithmPlan(algname, basefile, measure, pathid, listing);
    var m := ParseMeasure(measure).value;
    var plan := EvalAlgorithm(algname, basefile, measure, pathid, listing).value;
    RunClearedFile(m, ps, render, store, plan.cleared, ds, j.taskOutput);
  }

  /** A path ending in `.nmi_s` does not end in `.nmi` (nor in `.mod`). */
  lemma NmiSExtensionDistinct(path: string)
    requires EndsWith(path, "." + NmiS.Name())
    ensures !EndsWith(path, "." + Nmi.Name()) && !EndsWith(path, "." + Mod.Name())
  {
    assert path[|path| - 1] == 's';
  }

  /** A run that clears nothing keeps every file's previous lines in front. */
  lemma UntidyRunKeepsLines<V>(m: Measure, ps: Parsers<V>, render: V -> string,
                               store: Store, ds: seq<Done>, path: string)
    ensures var after := Read(Run(m, ps, render, store, [], ds), path);
            var before := Read(store, path);
            |before| <= |after| && after[..|before|] == before
  {
    RunKeptFile(m, ps, render, store, [], ds, path);
  }

  /** A run that clears nothing leaves alone every file no job of the plan appends to. */
  lemma UntidyRunOtherFiles<V>(plan: Plan, m: Measure, ps: Parsers<V>, render: V -> string,
                               store: Store, ds: seq<Done>, path: string)
    requires FromPlan(plan, ds)
    requires forall j :: j in plan.jobs ==> j.taskOutput != path
    ensures Read(Run(m, ps, render, store, [], ds), path) == Read(store, path)
  {
    forall i | 0 <= i < |ds| ensures ds[i].file != path {
      assert exists j :: j in plan.jobs && ds[i].file == j.taskOutput;
      var j :| j in plan.jobs && ds[i].file == j.taskOutput;
    }
    RunUntouched(m, ps, render, store, [], ds, path);
  }

  /**
   * An `nmi_s` run, which shares the `nmi/` directory, keeps every file's
   * previous lines and changes no file but its own `.nmi_s` ones: the `.nmi`
   * results beside them are left as they were.
   */
  lemma NmiSRunKeepsResults<V>(algname: string, basefile: string, pathid: string,
                               listing: seq<GroupEntry>, ps: Parsers<V>, render: V -> string,
                               store: Store, ds: seq<Done>, path: string)
    requires EvalAlgorithm(algname, basefile, "nmi_s", pathid, listing).Success?
    requires FromPlan(EvalAlgorithm(algname, basefile, "nmi_s", pathid, listing).value, ds)
    ensures var plan := EvalAlgorithm(algname, basefile, "nmi_s", pathid, listing).value;
            var after := Read(Run(NmiS, ps, render, store, plan.cleared, ds), path);
            var before := Read(store, path);
            |before| <= |after| && after[..|before|] == before &&
            (EndsWith(path, "." + Nmi.Name()) ==> after == before)
  {
    EvalAlgorithmPlan(algname, basefile, "nmi_s", pathid, listing);
    var plan := EvalAlgorithm(algname, basefile, "nmi_s", pathid, listing).value;
    UntidyRunKeepsLines(NmiS, ps, render, store, ds, path);
    if EndsWith(path, "." + Nmi.Name()) {
      forall j | j in plan.jobs ensures j.taskOutput != path {
        NmiSExtensionDistinct(j.taskOutput);
      }
      UntidyRunOtherFiles(plan, NmiS, ps, render, store, ds, path);
    }
  }
}

=== FILE: wrappers.dfy ===
/** Failure-carrying result types shared by the model. */
module Wrappers {

  /** A value that may be absent, as Python's `None` marks a missing result. */
  datatype Option<+T> = None | Some(value: T)

  /** The outcome of an operation that may raise; `error` carries the message. */
  datatype Result<+T> = Success(value: T) | Failure(error: string)
}
